=== FILE: README.md ===
# wfrp-npc-generator in Dafny

This project models the core of a non-player-character generator for the Warhammer Fantasy Roleplay game, with proofs about that model. Its parts:

- **Generation engine.** A character is built as a fold:
  - The species supplies a baseline: ten characteristics rolled from dice expressions, the species talents and the species trappings.
  - Each profession layer is then applied in order. It raises the characteristics it lists to an advancement floor of `5 * level`, appends its trappings and merges its talents.
  - The character is then assembled, with wounds derived from strength, toughness and willpower.
- **Command-line front end.** It looks up the command name, checks the argument count, then checks the shape of the profession identifiers (`soldier_2`) and of the species name.
- **Console displayer.** It lays out a character as four two-row tables. `Displayer.Print` keeps the source's count of cells per line, which can overflow the 60-character console (see Findings). `Displayer.PrintCorrected` uses the corrected count.
- **Attribute iterator.** It walks a character's twelve attributes in display order.
- **Thread random provider.** It sums a base value and one roll per inclusive die range.

Randomness is an explicit stream of rolls (`seq<nat>`). Every function that draws returns the value it drew together with the rest of the stream. A roll "a fair provider could give" is stated by a predicate (`Dice.FitsDice`, `Sampling.FairRolls`, `ThreadProvider.FitsRanges`). The provider itself and `rand::thread_rng` are not modelled.

The source aborts in several places: `panic!`, `expect`, an out-of-bounds index, or an empty range passed to the range sampler. Each abort becomes an error value: `Err` of `Dice.GenError`, `ThreadProvider.ProviderError` or `CommandErrors.CommandError`, or `None`.

There is one exception. The `unwrap`s in `validate_professions` and `validate_species` carry the source's note that the argument is checked before the call, so they are modelled as preconditions.

Modules, one file each:

| module | file | models |
|---|---|---|
| `Models` | models.dfy | the record and enum types of `src/models/` |
| `Dice` | dice.dfy | the provider's answer for a dice expression `N + kDm` |
| `CharacterAttributes` | character_attribute.dfy | the advancement ratchet `CharacterAttribute` |
| `Talents` | talents.dfy | talent materialisation and the two merge rules |
| `Sampling` | sampling.dfy | `unique_dice_values` |
| `Generator` | generator.dfy | `generate`, the effective pass |
| `CommandErrors`, `Commands` | command.dfy | `Command` and `CommandError` |
| `CommandArgs` | command_args.dfy | `GenerateNpcCommandArgs` |
| `Digits` | digits.dfy | decimal `to_string` of counts and levels |
| `AttributesIter` | attributes_iter.dfy | `CharacterAttributesIter` |
| `ThreadProvider` | thread_provider.dfy | `ThreadBasedRandomProvider` |
| `Displayer` | displayer.dfy | `ConsoleCharacterDisplayer` |
| `Wrappers` | wrappers.dfy | `Option`, `Result`, `Max` |

The level bounds `MIN_PROFESSION_LEVEL` and `MAX_PROFESSION_LEVEL` come from a constants file that is not part of this model. They are parameters `minLevel` (inclusive) and `maxLevel` (exclusive). The examples use 1 and 4. The source's tests fix the exclusive upper bound at 4, because "a_b_3" is accepted and "a_b_4" is rejected. They only imply that the lower bound is at most 1, because `validate_professions` accepts "aaaa_1".

The call at src/types/command.rs:105 is spelled `validate_proffessions`, a method that does not exist. The model takes it to be `validate_professions`.

## Model

| member | source | states |
|---|---|---|
| CharacterAttributes.New | src/types/non_playable_character_generator.rs:95-101 | a new attribute has the given id and base, no advances, and a value equal to its base |
| CharacterAttributes.Advance | src/types/non_playable_character_generator.rs:79-85 | id and base are unchanged; advances never decrease, end at least at the floor, and are either the old advances or the floor |
| CharacterAttributes.IncreaseBase | src/types/non_playable_character_generator.rs:86-88 | only the base grows, by exactly the given amount, and the value grows by the same amount |
| CharacterAttributes.ValueAfterAdvance | src/types/non_playable_character_generator.rs:79-94 | the value after advancing is the larger of the old value and base plus floor, and grows by exactly the floor's excess over the advances |
| CharacterAttributes.Bonus | src/types/non_playable_character_generator.rs:102-104 | the bonus is the tens digit of the value: `10*b <= value < 10*b + 10` |
| CharacterAttributes.AdvanceIdempotent | src/types/non_playable_character_generator.rs:79-85 | proposing the same floor a second time changes nothing |
| CharacterAttributes.AdvanceTwice | src/types/non_playable_character_generator.rs:79-85 | two floors amount to their maximum and commute, so layers compose by max and not by sum |
| CharacterAttributes.AdvanceNeverRegresses | src/types/non_playable_character_generator.rs:79-85 | a later, smaller floor leaves an earlier advance of 5 in place; a larger one raises it |
| CharacterAttributes.BonusExamples | src/types/non_playable_character_generator.rs:102-104 | bonus is integer division: 33 gives 3, 40 gives 4, 9 gives 0 |
| CharacterAttributes.Slot | src/types/non_playable_character_generator.rs:253-294 | each of the ten characteristics has a fixed array position holding it; Wounds and Movement have none |
| CharacterAttributes.FindAttributeFrom | src/types/non_playable_character_generator.rs:346-348 | the result is the first position from the start point whose id matches, or none when no later position matches |
| CharacterAttributes.FindAttribute | src/types/non_playable_character_generator.rs:346-348 | a position whose id matches, and nothing exactly when no position matches |
| CharacterAttributes.FindAttributeIsSlot | src/types/non_playable_character_generator.rs:346-352 | in the staging array the search finds exactly the fixed slot, and nothing for Wounds or Movement |
| Dice.Generate | src/models/generation_base.rs:1-5 | with enough rolls the answer is the base value plus exactly one roll per die, consuming those rolls; with no dice it is the base value |
| Dice.SingleDie | src/types/non_playable_character_generator.rs:37-40 | one die of any face count answers with the next roll |
| Dice.GenerateBounds | src/models/generation_base.rs:1-5 | with fair rolls the answer lies in `[base + number of dice, base + sum of faces]` |
| Talents.FromSingular | src/types/non_playable_character_generator.rs:29-34 | a singular definition gives a talent at level 1 with the definition's name, cap policy and description |
| Talents.Materialize | src/types/non_playable_character_generator.rs:24-50 | level is always 1; a singular definition draws nothing; a pool succeeds iff the roll is in `[1, k]` and then yields candidate `roll - 1`; otherwise the index aborts |
| Talents.FairPoolRollInBounds | src/types/non_playable_character_generator.rs:35-48 | for a non-empty pool a fair roll always selects one of the pool's candidates |
| Talents.FindFrom | src/types/non_playable_character_generator.rs:299 | the result is the first entry from the start point structurally equal to the candidate, or none when none is equal |
| Talents.FindTalent | src/types/non_playable_character_generator.rs:299 | the result is the first equal entry, and nothing exactly when the candidate is not in the list |
| Talents.Cap | src/types/non_playable_character_generator.rs:300-323 | Fixed gives its number and SkillDependent gives 1; AttributeDependent gives the bonus of the named characteristic, and aborts exactly for Wounds or Movement |
| Talents.ClampedIncrement | src/types/non_playable_character_generator.rs:324-328 | the result is never above the cap or above `level + 1`, and equals one of them |
| Talents.SpeciesMerge | src/types/non_playable_character_generator.rs:297-332 | a new candidate is appended; an equal entry is replaced by its clamped increment and every other entry is kept; only a forbidden cap aborts |
| Talents.ProfessionMerge | src/types/non_playable_character_generator.rs:358-365 | a new candidate is appended; an equal entry goes up by exactly one with no cap and every other entry is kept |
| Talents.SpeciesTalents | src/types/non_playable_character_generator.rs:297-332 | the species fold consumes a prefix of the rolls, keeps every earlier entry's identity in place, adds at most one entry per definition, and fails only with the fold's own aborts |
| Talents.ProfessionTalents | src/types/non_playable_character_generator.rs:358-365 | a layer's talent fold keeps earlier entries in place, never lowers a level, adds at most one entry per definition, and never fails on a cap |
| Talents.SingletonMerges | src/types/non_playable_character_generator.rs:297-365 | the first two merges of a repeated talent: appended, then clamped for species or raised by one for professions |
| Talents.SpeciesSingularStep | src/types/non_playable_character_generator.rs:297-299 | a singular species definition draws no roll and the fold continues from its merge |
| Talents.ProfessionSingularStep | src/types/non_playable_character_generator.rs:358-360 | a singular profession definition draws no roll and the fold continues from its merge |
| Talents.SpeciesPoolStep | src/types/non_playable_character_generator.rs:35-41 | a random species pool draws exactly one roll and merges the entry it selects, or fails with RollsExhausted or TalentIndexOutOfRange |
| Talents.ProfessionPoolStep | src/types/non_playable_character_generator.rs:35-41 | a random profession pool draws exactly one roll and merges the entry it selects, or fails with RollsExhausted or TalentIndexOutOfRange |
| Talents.SpeciesDuplicateRaisesLevel | src/types/non_playable_character_generator.rs:297-332 | a Fixed(3) talent listed twice by a species ends as one entry at level 2 |
| Talents.SpeciesThirdCopyAppended | src/types/non_playable_character_generator.rs:297-332 | a third copy no longer equals the entry at level 2, so it is appended as a new level-1 entry |
| Talents.SpeciesZeroCapLowersLevel | src/types/non_playable_character_generator.rs:324-328 | a cap of 0 pulls a repeated talent from level 1 down to 0 |
| Talents.SpeciesForbiddenDependency | src/types/non_playable_character_generator.rs:314-319 | a talent capped by Wounds or Movement is added once and aborts the fold when it repeats |
| Talents.SpeciesAttributeCap | src/types/non_playable_character_generator.rs:302-313 | a repeated attribute-capped talent reaches `min(2, bonus)` of the named characteristic |
| Talents.ProfessionDuplicateUncapped | src/types/non_playable_character_generator.rs:358-365 | profession merges ignore the cap: a Fixed(1) talent listed twice reaches level 2 |
| Talents.SingularProfessionTalentsUseNoRolls | src/types/non_playable_character_generator.rs:358-365 | a layer whose talents are all singular always succeeds and draws nothing |
| Sampling.CollectDistinct | src/types/non_playable_character_generator.rs:61-67 | the draw loop ends with k pairwise-distinct values extending what it had, each new one taken from the rolls |
| Sampling.UniqueDiceValues | src/types/non_playable_character_generator.rs:52-69 | it aborts exactly when `k > dice`; otherwise it yields k pairwise-distinct values, all within `[1, dice]` when the rolls are fair |
| Sampling.UniqueDiceValuesLoop | src/types/non_playable_character_generator.rs:52-69 | the two nested loops of the source compute exactly the recursive definition |
| Sampling.CollectIsFresh | src/types/non_playable_character_generator.rs:61-67 | against the reference `Fresh`: the loop succeeds iff the stream holds enough new values, and returns the first of them in order |
| Sampling.UniqueDiceValuesIsFirstDistinct | src/types/non_playable_character_generator.rs:52-69 | sampling succeeds iff the stream holds at least k distinct values, and returns the first k distinct values in stream order |
| Sampling.Faces | src/types/non_playable_character_generator.rs:57-60 | the faces of an n-faced die are exactly `1..n`, n of them |
| Sampling.FullSampleIsPermutation | src/types/non_playable_character_generator.rs:52-69 | drawing as many values as there are faces yields every face exactly once |
| Sampling.DomainTooSmallExample | src/types/non_playable_character_generator.rs:53-55 | three faces cannot give four distinct values |
| Generator.RollAttributes | src/types/non_playable_character_generator.rs:253-294 | Ok iff the stream holds as many rolls as all expressions have dice, and then exactly those are consumed; one attribute per expression, in order, with no advances; the first is its base plus the first rolls, and the rest are rolled from where it stopped |
| Generator.RollAttributesBounds | src/types/non_playable_character_generator.rs:253-294 | with rolls fair for each expression in turn, every attribute is rolled and lies in `[base + number of dice, base + sum of faces]` of its own expression |
| Generator.RollCharacteristics | src/types/non_playable_character_generator.rs:253-294 | the only failure is running out of rolls; on success the rest is a suffix of the stream and the staging array holds the ten characteristics in declaration order, none advanced |
| Generator.RollCharacteristicsConsumes | src/types/non_playable_character_generator.rs:253-294 | Ok iff the stream holds as many rolls as the species' ten expressions have dice, and then exactly those rolls are consumed |
| Generator.RollCharacteristicsBounds | src/types/non_playable_character_generator.rs:253-294 | with fair rolls every characteristic lies in the range of the species' dice expression for it |
| Generator.PrototypePass | src/types/non_playable_character_generator.rs:157-246 | the discarded first pass only consumes a prefix of the rolls |
| Generator.SpeciesBaseline | src/types/non_playable_character_generator.rs:249-341 | the baseline is well formed and unadvanced; its trappings are the species trappings twice; success needs at least six possible skills |
| Generator.Baseline | src/types/non_playable_character_generator.rs:157-341 | after the discarded pass, the same baseline guarantees as the species pass |
| Generator.AdvanceAll | src/types/non_playable_character_generator.rs:345-354 | it succeeds iff no listed id is Wounds or Movement; each listed characteristic is raised to `max(advances, floor)` and everything else is untouched |
| Generator.ApplyProfession | src/types/non_playable_character_generator.rs:343-365 | a layer that lists Wounds or Movement aborts; otherwise its trappings are appended after the existing ones and earlier talents keep their place |
| Generator.ProfessionAdvances | src/types/non_playable_character_generator.rs:344-354 | one layer raises each characteristic to `max(advances, 5*level if listed else 0)` and keeps every base |
| Generator.ApplyProfessions | src/types/non_playable_character_generator.rs:343-366 | the layers in order: the trappings are the starting ones followed by every layer's trappings in layer order, never merged |
| Generator.Assemble | src/types/non_playable_character_generator.rs:367-384 | talents and trappings carry over, skills are empty, movement is the species', and wounds are `S/10 + 2*(T/10) + WP/10` of the final values |
| Generator.AssembleValues | src/types/non_playable_character_generator.rs:371-380 | each of the ten characteristics is the value (base plus advances) of its slot |
| Generator.GenerateCharacter | src/types/non_playable_character_generator.rs:152-385 | a generated character has the species movement, no skills, the derived wounds, and trappings = species, species again, then each profession's in order |
| Generator.ProfessionsListOnlyCharacteristics | src/types/non_playable_character_generator.rs:346-353 | a successful fold means no layer listed Wounds or Movement |
| Generator.ProfessionsAdvanceToMaxFloor | src/types/non_playable_character_generator.rs:343-354 | after all layers each characteristic has `max(start advances, largest floor any layer proposed)` and its base unchanged |
| Generator.GenerateRejectsDerivedAttributes | src/types/non_playable_character_generator.rs:351-353 | generation fails whenever any layer lists Wounds or Movement |
| Generator.AssembledCharacteristics | src/types/non_playable_character_generator.rs:343-380 | from an unadvanced staging state each assembled characteristic is its base plus the largest floor |
| Generator.GenerateUnfolds | src/types/non_playable_character_generator.rs:249-384 | a generated character is the assembly of the layers folded over the baseline |
| Generator.GenerateCharacteristics | src/types/non_playable_character_generator.rs:253-380 | each characteristic of a generated character is its rolled base plus the largest floor any layer set for it |
| Generator.MaxFloorIsLargest | src/types/non_playable_character_generator.rs:343-350 | no layer proposes more than the largest floor, and some layer proposes exactly it unless it is 0 |
| Generator.MaxFloorAppend | src/types/non_playable_character_generator.rs:343-350 | the largest floor of a split history is the larger of the two parts' |
| Generator.MaxFloorSwap | src/types/non_playable_character_generator.rs:343-350 | the order of the career history does not change the characteristics |
| Generator.MaxFloorUnlisted | src/types/non_playable_character_generator.rs:343-350 | a characteristic that no layer lists gets no floor and so keeps advances 0 |
| Generator.TwoLayersExample | src/types/non_playable_character_generator.rs:344-350 | layers at levels 1 and 2 listing weapon skill give 10 in either order, not 15 |
| Generator.WoundsExample | src/types/non_playable_character_generator.rs:382 | strength 30, toughness 40 and willpower 33 give 3 + 2*4 + 3 = 14 wounds |
| Commands.NameIsOneArgument | src/types/command.rs:50-54 | every command name is non-empty and has no space, so it is a single argument |
| Commands.ParamsCountMatchesDescription | src/types/command.rs:79-91 | the usage line opens exactly as many `<` placeholders as the command takes parameters |
| Commands.Find | src/types/command.rs:57 | a found command is one of the list and has the name; nothing is found exactly when no command has it |
| Commands.FromStr | src/types/command.rs:56-65 | the lookup fails with InvalidCommand exactly when no command has that name; a found command has it |
| Commands.FromStrToStr | src/types/command.rs:50-65 | every command's name looks that command up |
| Commands.CommandDescription | src/types/command.rs:79-85 | the usage line starts with the command's name and is `generate-npc [<professions> <species>]` |
| Commands.ValidateCommandArguments | src/types/command.rs:93-110 | too many arguments gives `TooManyArguments(len-o, 2)` and too few gives `TooFewArguments(max(len,o)-o, 2)`, both before any content check; with the exact count the result is Ok iff every profession piece at position 1 and the species at position 2 are valid, and InvalidArguments otherwise |
| Commands.ParseCommand | src/types/command.rs:67-77 | no argument at the offset gives EmptyCommand, an unknown name gives InvalidCommand, and otherwise the arguments are validated from the next position |
| Commands.ParseTwoProfessions | src/types/command.rs:67-110 | with two profession pieces, parsing succeeds iff both pieces and the species are valid, and fails only with InvalidArguments |
| Commands.ParseAcceptsWellFormed | src/types/command.rs:116-119 | `generate-npc "your_mother_3 your_father_2" thebest` parses to GenerateNpc |
| Commands.ParseRejectsLevelOutOfRange | src/types/command.rs:121-125 | a profession at level 8 gives InvalidArguments |
| Commands.ParseCountErrors | src/types/command.rs:127-149 | too few gives (1, 2), too many gives (3, 2), no arguments gives EmptyCommand, and an unknown name gives InvalidCommand |
| Commands.OffsetOneNeverSucceeds | src/types/command.rs:93-110 | the shape checks always read positions 1 and 2, so parsing with offset 1 can never succeed |
| CommandArgs.Split | src/types/generate_npc_command_args.rs:19 | splitting gives at least one piece, and no piece holds the separator |
| CommandArgs.JoinSplit | src/types/generate_npc_command_args.rs:19 | joining the pieces with the separator gives back the argument |
| CommandArgs.SplitJoin | src/types/generate_npc_command_args.rs:19 | separator-free pieces joined and split again give the same pieces |
| CommandArgs.Professions | src/types/generate_npc_command_args.rs:15-24 | present iff an argument exists at the offset; its pieces join back to that argument and hold no space |
| CommandArgs.SpeciesArg | src/types/generate_npc_command_args.rs:26-35 | present iff an argument exists just after the offset, and it is that argument |
| CommandArgs.FindNonLower | src/types/generate_npc_command_args.rs:56 | `find`: no position iff every character is lowercase; otherwise the first position whose character is not |
| CommandArgs.FindNonName | src/types/generate_npc_command_args.rs:60 | `find`: no position iff every character is lowercase or `_`; otherwise the first position whose character is neither |
| CommandArgs.Reverse | src/types/generate_npc_command_args.rs:60-61 | `rev`: the same length, and position i holds the character i places from the end |
| CommandArgs.IsValidSpeciesAsFound | src/types/generate_npc_command_args.rs:54-57 | a species is valid iff it is longer than one and `find` meets no character that is not lowercase |
| CommandArgs.IsValidProfessionAsFound | src/types/generate_npc_command_args.rs:58-63 | an identifier is valid iff it is longer than two, `find` after skipping two reversed characters meets nothing but lowercase and `_`, the second reversed character is `_`, and the last is a digit in `[min, max)` |
| CommandArgs.ProfessionId | src/types/generate_npc_command_args.rs:58-63 | an identifier is its name followed by two more characters |
| CommandArgs.ProfessionIdValid | src/types/generate_npc_command_args.rs:58-63 | `name_level` is valid iff the name is non-empty, lowercase or `_`, and the level lies in `[min, max)` |
| CommandArgs.ValidProfessionParses | src/types/generate_npc_command_args.rs:58-63 | every valid identifier is `name_level` of its own parts |
| CommandArgs.ValidateProfessions | src/types/generate_npc_command_args.rs:37-44 | Ok iff every space-separated piece is a valid identifier; otherwise InvalidArguments |
| CommandArgs.ValidateSpecies | src/types/generate_npc_command_args.rs:46-52 | Ok iff the argument after the offset is a valid species; otherwise InvalidArguments |
| CommandArgs.EmptyPieceRejected | src/types/generate_npc_command_args.rs:37-44 | a doubled space leaves an empty piece, which makes validation fail |
| CommandArgs.ProfessionExamples | src/types/generate_npc_command_args.rs:72-79 | "a_b_3" is valid; "a_b_4" and "" are not |
| CommandArgs.ArgumentExamples | src/types/generate_npc_command_args.rs:54-63 | the identifiers and species names of the tests are classified as the tests expect |
| CommandArgs.SplitExample | src/types/generate_npc_command_args.rs:82-87 | "aaaa bb_bb" gives the pieces "aaaa" and "bb_bb" |
| CommandArgs.ValidateTwoPieces | src/types/generate_npc_command_args.rs:37-44 | a two-piece list is accepted iff both pieces are valid |
| CommandArgs.ValidateExamples | src/types/generate_npc_command_args.rs:89-111 | the test arguments pass both validations at offset 1 |
| CommandArgs.SplitTwo | src/types/generate_npc_command_args.rs:19 | two space-free pieces joined by one space split back into exactly those two |
| CommandArgs.SplitOne | src/types/generate_npc_command_args.rs:19 | a space-free argument is a single piece |
| Digits.NatToString | src/types/console_character_displayer.rs:20-21 | a number's decimal text is non-empty and all digits |
| Digits.NoLeadingZero | src/types/console_character_displayer.rs:20-21 | only zero starts with `0`, and no longer text does |
| Digits.NatToStringValue | src/types/console_character_displayer.rs:20-21 | reading the digits back gives the number |
| Digits.NatToStringInjective | src/types/console_character_displayer.rs:20-21 | different numbers are written differently |
| Digits.NatToStringLength | src/types/console_character_displayer.rs:20-21 | a number below `10^d` is written with at most d digits |
| Digits.U32Digits | src/models/character.rs:10-21 | an attribute that fits `u32` is written with at most ten digits |
| AttributesIter.NewStartsAtFirst | src/types/character_attributes_iter.rs:10-15 | a fresh walk yields the weapon skill first and then stands at the second attribute |
| AttributesIter.NameLengths | src/types/character_attributes_iter.rs:28-39 | no display name is longer than fifteen characters, and "Ballistic Skill" has fifteen |
| AttributesIter.CollectBelow | src/types/character_attributes_iter.rs:26-45 | a fresh walk yields twelve items, each below any bound that all the character's attributes are below |
| AttributesIter.Next | src/types/character_attributes_iter.rs:26-45 | an item comes iff fewer than twelve have been yielded; its name is the fixed name for that position; the index advances on an item and stays on None |
| AttributesIter.NextCharacteristic | src/types/character_attributes_iter.rs:28-37 | each of the first ten items carries the corresponding characteristic of the character |
| AttributesIter.NextDerived | src/types/character_attributes_iter.rs:38-39 | items 10 and 11 are Wounds and Movement with the character's values |
| AttributesIter.Collect | src/types/character_attributes_iter.rs:26-45 | the remaining walk has `12 - index` items, named in display order |
| AttributesIter.CollectAll | src/types/character_attributes_iter.rs:26-84 | a fresh walk yields exactly twelve items, "Weapon Skill" … "FellowShip", "Wounds", "Movement", each with its field's value |
| AttributesIter.CollectFrom | src/types/character_attributes_iter.rs:26-45 | the k-th remaining item is the field k places ahead |
| AttributesIter.ExhaustedStays | src/types/character_attributes_iter.rs:40-43 | once None is returned, None is returned again and nothing remains |
| ThreadProvider.RollAll | src/types/thread_based_random_provider.rs:16-19 | it succeeds iff every range is non-empty and there are enough rolls; the result is the sum of one roll per range; an empty range aborts |
| ThreadProvider.Generate | src/types/thread_based_random_provider.rs:13-21 | the answer is the base value plus exactly one roll per die, consuming those rolls |
| ThreadProvider.RollAllBounds | src/types/thread_based_random_provider.rs:16-19 | rolls within their ranges give a sum between the sum of lows and the sum of highs |
| ThreadProvider.GenerateBounds | src/types/thread_based_random_provider.rs:13-21 | rolls within their ranges give an answer in `[base + sum of lows, base + sum of highs]` |
| ThreadProvider.IgnoresArgument | src/types/thread_based_random_provider.rs:13 | the answer does not depend on the provider passed as argument |
| ThreadProvider.FaceRanges | src/models/generation_base.rs:1-5 | a dice expression's faces become the ranges `[1, face]`, one per die |
| ThreadProvider.AgreesWithDiceExpression | src/types/thread_based_random_provider.rs:13-21 | with ranges `[1, face]` the provider answers exactly as the dice expression with the same base |
| ThreadProvider.Examples | src/types/thread_based_random_provider.rs:28-62 | no dice gives 10; one d6 on base 5 lies in `[6, 11]`; three dice on base 0 lie in `[3, 24]` |
| Displayer.CreateTableRecord | src/types/console_character_displayer.rs:59-65 | a cell of length `width + 1`: the text, spaces up to the width, then the delimiter |
| Displayer.Width | src/types/console_character_displayer.rs:23-25 | every text of either row fits the width |
| Displayer.WidthAttained | src/types/console_character_displayer.rs:23-25 | the width is the length of some text, so it is the longest one |
| Displayer.ElemCountAsWritten | src/types/console_character_displayer.rs:27 | at least 1; `width * k` fits the space left after the prefix unless k is 1; and `width * (k + 1)` never fits, so k is `max((60 - prefix) / width, 1)` |
| Displayer.ElemCountAsWrittenUnique | src/types/console_character_displayer.rs:27 | the contract has exactly one solution: every count meeting it is the source's count |
| Displayer.ElemCount | src/types/console_character_displayer.rs:27 | at least 1, and otherwise the largest k such that prefix, delimiter and k delimited cells fit the console width |
| Displayer.Chunks | src/types/console_character_displayer.rs:34-35 | every chunk holds 1 to k cells, all but the last exactly k, and only cells of the input |
| Displayer.ChunkIndex | src/types/console_character_displayer.rs:34-35 | cell `k * j + q` of the input is cell q of chunk j |
| Displayer.ChunksFlatten | src/types/console_character_displayer.rs:34-46 | chunking loses, duplicates and reorders nothing |
| Displayer.Records | src/types/console_character_displayer.rs:36-41 | a row of n cells is `(width + 1) * n` long |
| Displayer.RecordsAppend | src/types/console_character_displayer.rs:36-41 | the row of two runs of cells is the row of the first followed by the row of the second |
| Displayer.RecordsAt | src/types/console_character_displayer.rs:36-41 | the i-th `width + 1` block of a row is exactly the i-th cell, padded and delimited |
| Displayer.ChunkLines | src/types/console_character_displayer.rs:36-42 | two lines per chunk, each its prefix and the delimiter followed by the records of the chunk's tops (first line) or bottoms (second line), in order |
| Displayer.ChunkCellAt | src/types/console_character_displayer.rs:36-42 | the q-th block after the prefix of a chunk's two lines is the q-th cell's top and bottom record |
| Displayer.TableLines | src/types/console_character_displayer.rs:34-46 | two lines per chunk |
| Displayer.TableLinesAt | src/types/console_character_displayer.rs:34-46 | lines 2j and 2j+1 are the lines of chunk j |
| Displayer.LinesWith | src/types/console_character_displayer.rs:29-47 | a table has two lines per chunk of cells, so a non-empty one has at least two |
| Displayer.CreateTableLines | src/types/console_character_displayer.rs:17-51 | lines exist iff some text is non-empty (the source panics on an empty table); then at least two |
| Displayer.CreateTableLinesAsWritten | src/types/console_character_displayer.rs:17-51 | the same, laid out with the source's count per line |
| Displayer.CreateTable | src/types/console_character_displayer.rs:17-51 | text exists iff some text is non-empty, and is every line of the corrected layout followed by a newline |
| Displayer.CreateTableAsWritten | src/types/console_character_displayer.rs:17-51 | text exists iff some text is non-empty, and is every line of the source's layout followed by a newline |
| Displayer.LinesWithAt | src/types/console_character_displayer.rs:34-47 | lines 2j and 2j + 1 of a table are the top and bottom lines of its j-th chunk |
| Displayer.LineLength | src/types/console_character_displayer.rs:34-42 | every line is at most prefix + 1 + (width + 1) * k long |
| Displayer.LinesFitConsole | src/types/console_character_displayer.rs:27 | with the corrected count every line is at most 60 characters, or one cell long |
| Displayer.NarrowTableOverflows | src/types/console_character_displayer.rs:27 | with the source's count the first line of that table is 107 characters long |
| Displayer.WideTableOverflows | src/types/console_character_displayer.rs:27 | with 14-character prefixes, width 15 and at least three cells, the source's count puts three cells on a first line of 63 characters |
| Displayer.GeneralWidth | src/types/console_character_displayer.rs:23-25 | a character whose attributes fit `u32` has a general table of twelve cells and width 15 |
| Displayer.GeneralTableOverflows | src/types/console_character_displayer.rs:27 | with the source's count, the general table of every such character opens with a 63-character line |
| Displayer.TableFitsConsole | src/types/console_character_displayer.rs:27 | if one cell fits after the prefix, every line of the corrected table fits in 60 characters |
| Displayer.TalentCells | src/types/console_character_displayer.rs:67-71 | talent tables put the name above the decimal level |
| Displayer.SkillCells | src/types/console_character_displayer.rs:72-76 | skill tables put the name above the decimal value |
| Displayer.TrappingCells | src/types/console_character_displayer.rs:77-81 | trapping tables put the name above the decimal count |
| Displayer.AttributeCells | src/types/console_character_displayer.rs:82-86 | the general table puts each attribute name above its decimal level |
| Displayer.NumberRowWidth | src/types/console_character_displayer.rs:23-25 | cells with a number below have positive width iff there is one |
| Displayer.NumberTables | src/types/console_character_displayer.rs:67-86 | the talent, skill and trapping tables have positive width iff their lists are non-empty, and the general table always has |
| Displayer.Sections | src/types/console_character_displayer.rs:95-103 | the text is the talents header, an empty line and the talents table; a newline, the skills header, an empty line and the skills table; a newline, the trappings header, an empty line, the trappings table and a newline; then the general skills header, an empty line and the general table, and nothing else |
| Displayer.Print | src/types/console_character_displayer.rs:90-104 | with the source's count of cells per line, the output exists iff talents, skills and trappings are all non-empty |
| Displayer.PrintSections | src/types/console_character_displayer.rs:90-104 | a printed character's text is its four tables, laid out with the source's count, placed by `Sections` |
| Displayer.PrintCorrected | src/types/console_character_displayer.rs:90-104 | with the corrected count, the output exists iff talents, skills and trappings are all non-empty |
| Displayer.PrintCorrectedSections | src/types/console_character_displayer.rs:90-104 | its text is the four corrected tables placed by `Sections` |
| Displayer.GeneratedCharacterNotPrintable | src/types/console_character_displayer.rs:99 | a generated character has no skills, so printing it panics |
| Displayer.RecordExample | src/types/console_character_displayer.rs:111-114 | the record of 1 at width 2 is the digit, one space and the delimiter |
| Displayer.TalentTableLinesExample | src/types/console_character_displayer.rs:115-119 | a single talent "Tal" at level 1 gives the two expected lines, with the source's count and with the corrected one |
| Displayer.TalentTableExample | src/types/console_character_displayer.rs:115-119 | under either count, that talent's table is exactly the text the source's test expects: the two prefixed lines, each ended by a newline |

## Left out

- **I/O and randomness.** Console output, `rand::thread_rng` and the random provider object are replaced by the roll stream.
  - `RollsExhausted` and `OutOfRolls` only say that a scripted stream was too short. The source has no such error.
- **Error messages.** The `Display` messages of `CommandError` (src/types/command.rs:14-36) are formatting only.
- **Other files.**
  - src/types/app.rs and src/main.rs are console wiring and a placeholder entry point.
  - The interface files, src/models/profession_class.rs and the constants file hold no behaviour that needs modelling.
- **The first talent fold (src/types/non_playable_character_generator.rs:206-246).** Its result is discarded. `Generator.PrototypePass` models only the rolls it consumes and its aborts, reusing the species merge. The source cannot compile that block as written because it mutates through a shared reference.
- **The skill positions (src/types/non_playable_character_generator.rs:340).** They are drawn and then ignored: the loop on the next line has an empty body. No skill is ever produced.
- **SkillDependent caps.** A SkillDependent cap is the constant 1. The named skill plays no part.
- Generator.ApplyProfession: requires `profession_level <= 51` instead of modelling the overflow of the `u8` product `5 * profession_level`.
- Generator.Assemble: does not model `u32` overflow of `base + advances` or of the wounds sum.
- Dice.Generate: does not model `u32` overflow of the sum of rolls.
- ThreadProvider.Generate: does not model `u32` overflow of the sum of rolls.
- Talents.Materialize: the source computes `roll - 1` in `u32`, where a roll of 0 underflows. That case and every other out-of-range roll are folded into one `TalentIndexOutOfRange` error.
- Sampling.UniqueDiceValues: does not model the truncating `as u32` cast of the number of possible skills.
- CommandArgs.IsValidProfession: ASCII `a`-`z` stand for Unicode `is_lowercase`, and the length is counted in characters. For ASCII this equals the source's byte length.
- CommandArgs.IsValidSpecies: ASCII `a`-`z` stand for Unicode `is_lowercase`, and the length is counted in characters.
- Displayer.CreateTableRecord: widths are character counts. They equal the source's byte lengths only for ASCII text.
- **The peek loop (src/types/console_character_displayer.rs:43-45).** It has no effect and is not modelled.
- Displayer.CreateTable: lays tables out with the corrected count of cells per line (see Findings). `Displayer.CreateTableAsWritten` keeps the source's count, and `Displayer.Print` uses it.
- Models.Profession: drops the source's `class` field (src/models/profession.rs:11). No operation of the generator or the displayer reads it.

## Findings

| source | as written | input that shows it | evidently intended | confidence | as-written member | corrected member |
|---|---|---|---|---|---|---|
| src/types/console_character_displayer.rs:27 | the cells per line are `(60 - prefix) / width`, at least 1, which ignores the delimiter after the prefix and after every cell | 46 one-character cells under the 14-character talent prefixes: all 46 go on one line of 14 + 1 + 46·2 = 107 characters. Every character's general skills table is 15 wide, so its first line holds 3 cells and is 63 characters long (`Displayer.GeneralTableOverflows`) | every line stays within `MAX_CONSOLE_DISPLAY_LENGTH` (60) unless a single cell is already wider | medium, not executed | Displayer.NarrowTableOverflows | Displayer.TableFitsConsole |

=== FILE: attributes_iter.dfy ===
/**
 * Walking a character's twelve attributes in display order
 * (`CharacterAttributesIter`): the ten characteristics, then wounds, then
 * movement, each with its display name.
 */
module AttributesIter {
  import opened Wrappers
  import opened Models

  datatype CharacterAttributesIter = CharacterAttributesIter(character: Character, index: nat)

  /** One item of the walk: a display name and the attribute's value. */
  datatype NamedAttribute = NamedAttribute(name: string, level: nat)

  const AttributeCount: nat := 12

  /** The display names, in the order the walk yields them. */
  const AttributeNames: seq<string> := [
    "Weapon Skill", "Ballistic Skill", "Strength", "Toughness", "Initiative", "Agility",
    "Dexterity", "Intelligence", "Willpower", "FellowShip", "Wounds", "Movement"]

  /** The longest display name, "Ballistic Skill", has fifteen characters. */
  lemma NameLengths()
    ensures forall k :: 0 <= k < |AttributeNames| ==> |AttributeNames[k]| <= 15
    ensures |AttributeNames[1]| == 15
  {
  }

  /** A fresh walk over `c`. */
  function New(c: Character): CharacterAttributesIter {
    CharacterAttributesIter(c, 0)
  }

  /** The item at `index`, or `None` once all twelve have been yielded. */
  function Field(c: Character, index: nat): Option<NamedAttribute> {
    match index
    case 0 => Some(NamedAttribute("Weapon Skill", c.weaponSkill))
    case 1 => Some(NamedAttribute("Ballistic Skill", c.ballisticSkill))
    case 2 => Some(NamedAttribute("Strength", c.strength))
    case 3 => Some(NamedAttribute("Toughness", c.toughness))
    case 4 => Some(NamedAttribute("Initiative", c.initiative))
    case 5 => Some(NamedAttribute("Agility", c.agility))
    case 6 => Some(NamedAttribute("Dexterity", c.dexterity))
    case 7 => Some(NamedAttribute("Intelligence", c.intelligence))
    case 8 => Some(NamedAttribute("Willpower", c.willpower))
    case 9 => Some(NamedAttribute("FellowShip", c.fellowship))
    case 10 => Some(NamedAttribute("Wounds", c.wounds))
    case 11 => Some(NamedAttribute("Movement", c.movement))
    case _ => None
  }

  /**
   * `next`: the item at the current position and the iterator moved one
   * step on; an exhausted iterator yields nothing and keeps its position.
   */
  function Next(it: CharacterAttributesIter): (r: (Option<NamedAttribute>, CharacterAttributesIter))
    ensures r.0.Some? <==> it.index < AttributeCount
    ensures r.0.Some? ==> r.0.value.name == AttributeNames[it.index]
    ensures r.0.Some? ==> r.1 == CharacterAttributesIter(it.character, it.index + 1)
    ensures r.0.None? ==> r.1 == it
  {
    match Field(it.character, it.index)
    case None => (None, it)
    case Some(a) => (Some(a), it.(index := it.index + 1))
  }

  /** What the walk yields for the characteristics agrees with the characteristic table. */
  lemma NextCharacteristic(it: CharacterAttributesIter)
    requires it.index < |Characteristics|
    ensures Next(it).0 == Some(NamedAttribute(AttributeNames[it.index], CharacteristicValue(it.character, it.index)))
  {
  }

  lemma NextDerived(it: CharacterAttributesIter)
    ensures it.index == 10 ==> Next(it).0 == Some(NamedAttribute("Wounds", it.character.wounds))
    ensures it.index == 11 ==> Next(it).0 == Some(NamedAttribute("Movement", it.character.movement))
  {
  }

  /** A fresh walk starts with the weapon skill and moves on to the second attribute. */
  lemma NewStartsAtFirst(c: Character)
    ensures Next(New(c)).0 == Some(NamedAttribute("Weapon Skill", c.weaponSkill))
    ensures Next(New(c)).1 == CharacterAttributesIter(c, 1)
  {
  }

  /** Everything the iterator still yields, in order. */
  function Collect(it: CharacterAttributesIter): (r: seq<NamedAttribute>)
    ensures |r| == if it.index < AttributeCount then AttributeCount - it.index else 0
    ensures forall k :: 0 <= k < |r| ==> r[k].name == AttributeNames[it.index + k]
    decreases AttributeCount - it.index
  {
    var (item, next) := Next(it);
    match item
    case None => []
    case Some(a) => [a] + Collect(next)
  }

  /** A fresh iterator yields all twelve names in display order, with the characteristics' values first. */
  lemma CollectAll(c: Character)
    ensures |Collect(New(c))| == AttributeCount
    ensures forall k :: 0 <= k < AttributeCount ==> Collect(New(c))[k].name == AttributeNames[k]
    ensures forall k :: 0 <= k < |Characteristics| ==> Collect(New(c))[k].level == CharacteristicValue(c, k)
    ensures Collect(New(c))[10].level == c.wounds && Collect(New(c))[11].level == c.movement
  {
    CollectCharacteristics(c);
    CollectDerived(c);
  }

  lemma CollectCharacteristics(c: Character)
    ensures |Collect(New(c))| == AttributeCount
    ensures forall k :: 0 <= k < |Characteristics| ==> Collect(New(c))[k].level == CharacteristicValue(c, k)
  {
    forall k | 0 <= k < |Characteristics|
      ensures Collect(New(c))[k].level == CharacteristicValue(c, k)
    {
      CollectCharacteristic(c, k);
    }
  }

  lemma CollectDerived(c: Character)
    ensures |Collect(New(c))| == AttributeCount
    ensures Collect(New(c))[10].level == c.wounds && Collect(New(c))[11].level == c.movement
  {
    CollectFrom(New(c), 10);
    CollectFrom(New(c), 11);
  }

  lemma CollectCharacteristic(c: Character, k: nat)
    requires k < |Characteristics|
    ensures k < |Collect(New(c))| && Collect(New(c))[k].level == CharacteristicValue(c, k)
  {
    CollectFrom(New(c), k);
    NextCharacteristic(CharacterAttributesIter(c, k));
  }

  /** The k-th item still to come is the field k places ahead. */
  lemma {:induction false} CollectFrom(it: CharacterAttributesIter, k: nat)
    requires it.index + k < AttributeCount
    ensures Field(it.character, it.index + k).Some?
    ensures Collect(it)[k] == Field(it.character, it.index + k).value
    decreases k
  {
    if k > 0 {
      CollectFrom(Next(it).1, k - 1);
    }
  }

  /** Every attribute of `c` is below `bound`. */
  predicate LevelsBelow(c: Character, bound: nat) {
    (forall i :: 0 <= i < |Characteristics| ==> CharacteristicValue(c, i) < bound) &&
    c.wounds < bound && c.movement < bound
  }

  /** The walk yields the character's own values, so a bound on them bounds every item. */
  lemma CollectBelow(c: Character, bound: nat)
    requires LevelsBelow(c, bound)
    ensures |Collect(New(c))| == AttributeCount
    ensures forall k :: 0 <= k < AttributeCount ==> Collect(New(c))[k].level < bound
  {
    forall k | 0 <= k < AttributeCount
      ensures Collect(New(c))[k].level < bound
    {
      if k < |Characteristics| {
        CollectCharacteristic(c, k);
      } else if k == 10 {
        CollectFrom(New(c), 10);
      } else {
        CollectFrom(New(c), 11);
      }
    }
  }

  /** Once exhausted the iterator stays exhausted. */
  lemma ExhaustedStays(it: CharacterAttributesIter)
    requires Next(it).0.None?
    ensures Next(Next(it).1).0.None?
    ensures Collect(it) == []
  {
  }
}

=== FILE: character_attribute.dfy ===
/**
 * The staging wrapper around one characteristic used while a character is
 * generated (`CharacterAttribute` in the generator). Advancement is a
 * ratchet: a proposed floor can raise `advances` but never lower it.
 */
module CharacterAttributes {
  import opened Wrappers
  import opened Models

  datatype CharacterAttribute = CharacterAttribute(id: BaseAttribute, baseValue: nat, advances: nat)

  /** A freshly rolled characteristic: no advances yet. */
  function New(id: BaseAttribute, base: nat): (r: CharacterAttribute)
    ensures r.id == id && r.baseValue == base && r.advances == 0
    ensures Value(r) == base
  {
    CharacterAttribute(id, base, 0)
  }

  /** Raise `advances` to at least `floor`; never lower it. */
  function Advance(a: CharacterAttribute, floor: nat): (r: CharacterAttribute)
    ensures r.id == a.id && r.baseValue == a.baseValue
    ensures r.advances >= a.advances && r.advances >= floor
    ensures r.advances == a.advances || r.advances == floor
  {
    a.(advances := if floor > a.advances then floor else a.advances)
  }

  /** Add `delta` to the base value; advances are untouched. */
  function IncreaseBase(a: CharacterAttribute, delta: nat): (r: CharacterAttribute)
    ensures r.id == a.id && r.advances == a.advances
    ensures r.baseValue - a.baseValue == delta
    ensures Value(r) == Value(a) + delta
  {
    a.(baseValue := a.baseValue + delta)
  }

  predicate IsAttribute(a: CharacterAttribute, id: BaseAttribute) {
    id == a.id
  }

  /** The characteristic as the character will have it: base plus advances. */
  function Value(a: CharacterAttribute): nat {
    a.baseValue + a.advances
  }

  /** The tens digit of the value, `value / 10`. */
  function Bonus(a: CharacterAttribute): (r: nat)
    ensures 10 * r <= Value(a) < 10 * r + 10
  {
    Value(a) / 10
  }

  /**
   * Advancing raises the value to the base plus the floor when that is more,
   * and otherwise leaves it as it was.
   */
  lemma ValueAfterAdvance(a: CharacterAttribute, floor: nat)
    ensures Value(Advance(a, floor)) == Max(Value(a), a.baseValue + floor)
    ensures Value(Advance(a, floor)) - Value(a) == Max(floor, a.advances) - a.advances
  {
  }

  /** Proposing the same floor twice changes nothing the second time. */
  lemma AdvanceIdempotent(a: CharacterAttribute, floor: nat)
    ensures Advance(Advance(a, floor), floor) == Advance(a, floor)
  {
  }

  /** Two floors in either order amount to the larger one: layers compose by `max`, not by sum. */
  lemma AdvanceTwice(a: CharacterAttribute, f: nat, g: nat)
    ensures Advance(Advance(a, f), g) == Advance(a, Max(f, g))
    ensures Advance(Advance(a, f), g) == Advance(Advance(a, g), f)
  {
  }

  /** A later, smaller floor does not undo an earlier advance: `advance(5)` then `advance(2)` leaves 5. */
  lemma AdvanceNeverRegresses(a: CharacterAttribute)
    requires a.advances == 0
    ensures Advance(Advance(a, 5), 2).advances == 5
    ensures Advance(Advance(a, 5), 10).advances == 10
  {
  }

  /** Bonus is integer division: 33 gives 3, 40 gives 4. */
  lemma BonusExamples(id: BaseAttribute)
    ensures Bonus(New(id, 33)) == 3 && Bonus(New(id, 40)) == 4
    ensures Bonus(New(id, 9)) == 0
  {
  }
  /** The staging array: one attribute per characteristic, in `Characteristics` order. */
  ghost predicate WellFormed(attrs: seq<CharacterAttribute>) {
    |attrs| == |Characteristics| &&
    forall i :: 0 <= i < |attrs| ==> attrs[i].id == Characteristics[i]
  }

  /** The fixed array position of a characteristic; Wounds and Movement have none. */
  function Slot(a: BaseAttribute): (r: Option<nat>)
    ensures r.None? <==> a == Wounds || a == Movement
    ensures r.Some? ==> r.value < |Characteristics| && Characteristics[r.value] == a
  {
    match a
    case WeaponSkill => Some(0)
    case BallisticSkill => Some(1)
    case Strength => Some(2)
    case Toughness => Some(3)
    case Initiative => Some(4)
    case Agility => Some(5)
    case Dexterity => Some(6)
    case Intelligence => Some(7)
    case Willpower => Some(8)
    case Fellowship => Some(9)
    case Wounds => None
    case Movement => None
  }

  /** Position of the first attribute that `IsAttribute(_, id)`, searching from `from`. */
  function FindAttributeFrom(attrs: seq<CharacterAttribute>, id: BaseAttribute, from: nat): (r: Option<nat>)
    requires from <= |attrs|
    ensures r.Some? ==> from <= r.value < |attrs| && attrs[r.value].id == id
    ensures r.Some? ==> forall j :: from <= j < r.value ==> attrs[j].id != id
    ensures r.None? ==> forall j :: from <= j < |attrs| ==> attrs[j].id != id
    decreases |attrs| - from
  {
    if from == |attrs| then None
    else if IsAttribute(attrs[from], id) then Some(from)
    else FindAttributeFrom(attrs, id, from + 1)
  }

  /** Linear search for the attribute with the given id (`iter_mut().find(is_attribute)`). */
  function FindAttribute(attrs: seq<CharacterAttribute>, id: BaseAttribute): (r: Option<nat>)
    ensures r.Some? ==> r.value < |attrs| && attrs[r.value].id == id
    ensures r.None? <==> forall j :: 0 <= j < |attrs| ==> attrs[j].id != id
  {
    FindAttributeFrom(attrs, id, 0)
  }

  /** In the staging array the search finds exactly the fixed slot, and nothing for Wounds or Movement. */
  lemma FindAttributeIsSlot(attrs: seq<CharacterAttribute>, id: BaseAttribute)
    requires WellFormed(attrs)
    ensures FindAttribute(attrs, id) == Slot(id)
  {
    var r := FindAttribute(attrs, id);
    if r.Some? {
      assert Characteristics[r.value] == id;
    }
  }
}

=== FILE: command.dfy ===
/** The errors the command-line front end reports (`CommandError`). */
module CommandErrors {
  datatype CommandError =
    | InvalidCommand
    | InvalidArguments
    | EmptyCommand
    | TooFewArguments(given: nat, expected: nat)
    | TooManyArguments(given: nat, expected: nat)
}

/**
 * Command lookup and argument checking (`Command`): the command name is looked
 * up first, then the number of arguments, then their shape.
 */
module Commands {
  import opened Wrappers
  import opened CommandErrors
  import opened CommandArgs

  datatype Command = GenerateNpc

  /** Every command the front end knows, in lookup order. */
  const AllCommands: seq<Command> := [GenerateNpc]

  /** The command's name. */
  function ToStr(c: Command): string {
    match c
    case GenerateNpc => "generate-npc"
  }

  /** Every name is a single command-line argument: non-empty and without a space. */
  lemma NameIsOneArgument(c: Command)
    ensures ToStr(c) != [] && ' ' !in ToStr(c)
  {
  }

  /** First command of `cs` whose name is `s`. */
  function Find(cs: seq<Command>, s: string): (r: Option<Command>)
    ensures r.Some? ==> r.value in cs && ToStr(r.value) == s
    ensures r.None? <==> forall k :: 0 <= k < |cs| ==> ToStr(cs[k]) != s
  {
    if cs == [] then None
    else if ToStr(cs[0]) == s then Some(cs[0])
    else Find(cs[1..], s)
  }

  /** Look a command up by name. */
  function FromStr(s: string): (r: Result<Command, CommandError>)
    ensures r.Ok? ==> ToStr(r.value) == s
    ensures r.Err? <==> forall c: Command :: ToStr(c) != s
    ensures r.Err? ==> r.error == InvalidCommand
  {
    match Find(AllCommands, s)
    case Some(c) => Ok(c)
    case None => Err(InvalidCommand)
  }

  /** Every command's name looks up that command. */
  lemma FromStrToStr(c: Command)
    ensures FromStr(ToStr(c)) == Ok(c)
  {
    assert c in AllCommands;
  }

  /** The usage line of a command. */
  function CommandDescription(c: Command): (r: string)
    ensures |r| > |ToStr(c)| && r[..|ToStr(c)|] == ToStr(c)
    ensures c == GenerateNpc ==> r == "generate-npc [<professions> <species>]"
  {
    var argsDesc := match c case GenerateNpc => "<professions> <species>";
    ToStr(c) + " [" + argsDesc + "]"
  }

  /** How many arguments follow the command's name. */
  function CommandParamsCount(c: Command): nat {
    match c
    case GenerateNpc => 2
  }

  /** How often `ch` occurs in `s`. */
  function Occurrences(s: string, ch: char): nat {
    if s == [] then 0 else (if s[0] == ch then 1 else 0) + Occurrences(s[1..], ch)
  }

  /** The usage line opens one `<…>` placeholder per parameter the command takes. */
  lemma ParamsCountMatchesDescription(c: Command)
    ensures Occurrences(CommandDescription(c), '<') == CommandParamsCount(c)
  {
    PlaceholderCount(CommandDescription(c), ToStr(c) + " [", "<professions> <species>");
  }

  /** A usage line whose head has no `<` and whose two placeholders follow it has two openings. */
  lemma PlaceholderCount(usage: string, head: string, params: string)
    requires '<' !in head && params == "<professions> <species>"
    requires usage == head + params + "]"
    ensures Occurrences(usage, '<') == 2
  {
    var b, d := "professions> ", "species>";
    assert params == "<" + b + "<" + d;
    PiecesHaveNoOpening();
    OccurrencesAppend(head + params, "]", '<');
    OccurrencesAppend(head, params, '<');
    OccurrencesNone(head, '<');
    OccurrencesNone("]", '<');
    TwoOpenings(b, d);
  }

  lemma PiecesHaveNoOpening()
    ensures '<' !in "professions> " && '<' !in "species>" && '<' !in "]"
  {
  }

  /** Two `<`, each followed by a piece that has none. */
  lemma TwoOpenings(b: string, d: string)
    requires '<' !in b && '<' !in d
    ensures Occurrences("<" + b + "<" + d, '<') == 2
  {
    OccurrencesAppend("<" + b + "<", d, '<');
    OccurrencesAppend("<" + b, "<", '<');
    OccurrencesAppend("<", b, '<');
    OccurrencesNone(b, '<');
    OccurrencesNone(d, '<');
  }

  lemma {:induction false} OccurrencesNone(s: string, ch: char)
    requires ch !in s
    ensures Occurrences(s, ch) == 0
    decreases |s|
  {
    if s != [] {
      assert s[0] in s;
      assert forall x :: x in s[1..] ==> x in s;
      OccurrencesNone(s[1..], ch);
    }
  }

  lemma {:induction false} OccurrencesAppend(a: string, b: string, ch: char)
    ensures Occurrences(a + b, ch) == Occurrences(a, ch) + Occurrences(b, ch)
    decreases |a|
  {
    if a != [] {
      assert (a + b)[0] == a[0];
      assert (a + b)[1..] == a[1..] + b;
      OccurrencesAppend(a[1..], b, ch);
    } else {
      assert a + b == b;
    }
  }

  /**
   * Count check against `offset` (the position after the command name), then
   * the shape checks, which always read the professions at position 1 and the
   * species at position 2 whatever the offset.
   */
  function ValidateCommandArguments(c: Command, args: seq<string>, offset: nat, minLevel: nat, maxLevel: nat)
    : (r: Result<Command, CommandError>)
    requires offset >= 1
    ensures |args| > CommandParamsCount(c) + offset ==>
      r == Err(TooManyArguments(|args| - offset, CommandParamsCount(c)))
    ensures |args| < CommandParamsCount(c) + offset ==>
      r == Err(TooFewArguments(Max(|args|, offset) - offset, CommandParamsCount(c)))
    ensures |args| == CommandParamsCount(c) + offset ==>
      (r == Ok(c) <==>
        (forall k :: 0 <= k < |Split(args[1], ' ')| ==> IsValidProfession(Split(args[1], ' ')[k], minLevel, maxLevel)) &&
        IsValidSpecies(args[2]))
    ensures |args| == CommandParamsCount(c) + offset && r.Err? ==> r.error == InvalidArguments
    ensures r.Ok? ==> r.value == c
  {
    var n := CommandParamsCount(c);
    if |args| > n + offset then Err(TooManyArguments(Max(|args|, offset) - offset, n))
    else if |args| < n + offset then Err(TooFewArguments(Max(|args|, offset) - offset, n))
    else
      match c
      case GenerateNpc =>
        var argOffset := Some(1);
        assert Professions(args, argOffset).value == Split(args[1], ' ');
        match ValidateProfessions(args, argOffset, minLevel, maxLevel)
        case Err(e) => Err(e)
        case Ok(_) =>
          match ValidateSpecies(args, argOffset)
          case Err(e) => Err(e)
          case Ok(_) => Ok(c)
  }

  /** `parse_command`: the command name at the offset (default 0), then its arguments after it. */
  function ParseCommand(args: seq<string>, offset: Option<nat>, minLevel: nat, maxLevel: nat)
    : (r: Result<Command, CommandError>)
    ensures offset.GetOr(0) >= |args| ==> r == Err(EmptyCommand)
    ensures offset.GetOr(0) < |args| && args[offset.GetOr(0)] != ToStr(GenerateNpc) ==> r == Err(InvalidCommand)
    ensures offset.GetOr(0) < |args| && args[offset.GetOr(0)] == ToStr(GenerateNpc) ==>
      r == ValidateCommandArguments(GenerateNpc, args, offset.GetOr(0) + 1, minLevel, maxLevel)
  {
    var off := offset.GetOr(0);
    if off < |args| then
      var c :- FromStr(args[off]);
      ValidateCommandArguments(c, args, off + 1, minLevel, maxLevel)
    else Err(EmptyCommand)
  }

  /**
   * Three arguments, the command name first and a profession list of two
   * pieces: parsing succeeds exactly when both pieces and the species are
   * well formed, and fails with `InvalidArguments` otherwise.
   */
  lemma ParseTwoProfessions(args: seq<string>, a: string, b: string, minLevel: nat, maxLevel: nat)
    requires |args| == 3 && args[0] == ToStr(GenerateNpc) && args[1] == a + " " + b
    requires ' ' !in a && ' ' !in b
    ensures ParseCommand(args, None, minLevel, maxLevel).Ok? <==>
      IsValidProfession(a, minLevel, maxLevel) && IsValidProfession(b, minLevel, maxLevel) && IsValidSpecies(args[2])
    ensures ParseCommand(args, None, minLevel, maxLevel).Err? ==>
      ParseCommand(args, None, minLevel, maxLevel).error == InvalidArguments
  {
    SplitTwo(a, b);
    var ps := Split(args[1], ' ');
    assert ps[0] == a && ps[1] == b && |ps| == 2;
  }

  lemma ParseAcceptsWellFormed(args: seq<string>)
    requires args == ["generate-npc", "your_mother_3 your_father_2", "thebest"]
    ensures ParseCommand(args, None, 1, 4) == Ok(GenerateNpc)
  {
    assert ' ' !in "your_mother_3" && ' ' !in "your_father_2";
    assert args[1] == "your_mother_3" + " " + "your_father_2";
    ParseTwoProfessions(args, "your_mother_3", "your_father_2", 1, 4);
    ArgumentExamples();
  }

  lemma ParseRejectsLevelOutOfRange(args: seq<string>)
    requires args == ["generate-npc", "your_father_8 your_mother_2", "thebest"]
    ensures ParseCommand(args, None, 1, 4) == Err(InvalidArguments)
  {
    assert ' ' !in "your_father_8" && ' ' !in "your_mother_2";
    assert args[1] == "your_father_8" + " " + "your_mother_2";
    ParseTwoProfessions(args, "your_father_8", "your_mother_2", 1, 4);
    ArgumentExamples();
  }

  /**
   * The unknown command name of the source's tests, written as a join of
   * short literals: one literal this long is costly for the solver.
   */
  const UnknownCommandName: string :=
    "nan-is-a-great-return-" +
    "type-for-division-in-" +
    "dynamically-typed-" +
    "languages-especially-if-" +
    "it-is-not-directly-" +
    "comparable-with-integers-" +
    "nor-itself-and-you-" +
    "detect-it-at-runtime"

  /** The argument-count, empty and unknown-command cases of the source's tests. */
  lemma ParseCountErrors()
    ensures ParseCommand(["generate-npc", "thebest"], None, 1, 4) == Err(TooFewArguments(1, 2))
    ensures ParseCommand(["generate-npc", "warrior_1", "warrior_1", "thebest"], None, 1, 4) == Err(TooManyArguments(3, 2))
    ensures ParseCommand([], None, 1, 4) == Err(EmptyCommand)
    ensures ParseCommand([UnknownCommandName], None, 1, 4) == Err(InvalidCommand)
  {
    assert |UnknownCommandName| != |ToStr(GenerateNpc)|;
  }

  /**
   * The shape checks always read positions 1 and 2. With offset 1 (a leading
   * program name kept in the list) position 1 holds the command name itself,
   * which is never a profession identifier, so parsing can never succeed.
   */
  lemma OffsetOneNeverSucceeds(args: seq<string>, minLevel: nat, maxLevel: nat)
    ensures ParseCommand(args, Some(1), minLevel, maxLevel).Err?
  {
    if 1 < |args| && args[1] == ToStr(GenerateNpc) && |args| == 4 {
      SplitOne(args[1]);
      assert Split(args[1], ' ')[0] == args[1];
      assert args[1][8] == '-';
      assert !IsValidProfession(args[1], minLevel, maxLevel);
    }
  }
}

=== FILE: command_args.dfy ===
/**
 * Shape checks for the `generate-npc` arguments (`GenerateNpcCommandArgs`):
 * a space-separated list of profession identifiers such as `soldier_2`, and a
 * lowercase species name. Characters are ASCII; the level bounds are
 * parameters `minLevel` (inclusive) and `maxLevel` (exclusive).
 */
module CommandArgs {
  import opened Wrappers
  import opened CommandErrors
  import opened Digits

  /** Position of the first `c` in `s`, or `|s|` when there is none. */
  function IndexOf(s: string, c: char): (r: nat)
    ensures r <= |s| && c !in s[..r]
    ensures r < |s| ==> s[r] == c
  {
    if s == [] then 0
    else if s[0] == c then 0
    else
      var r := 1 + IndexOf(s[1..], c);
      assert s[..r] == [s[0]] + s[1..][..r - 1];
      r
  }

  /** `str::split(sep)`: every piece between separators, empty pieces included. */
  function Split(s: string, sep: char): (r: seq<string>)
    ensures |r| >= 1
    ensures forall k :: 0 <= k < |r| ==> sep !in r[k]
    decreases |s|
  {
    var i := IndexOf(s, sep);
    if i == |s| then
      assert s[..i] == s;
      [s]
    else [s[..i]] + Split(s[i + 1..], sep)
  }

  /** The pieces glued back together with `sep` between them. */
  function Join(ts: seq<string>, sep: char): string
    requires |ts| >= 1
  {
    if |ts| == 1 then ts[0] else ts[0] + [sep] + Join(ts[1..], sep)
  }

  lemma {:induction false} JoinSplit(s: string, sep: char)
    ensures Join(Split(s, sep), sep) == s
    decreases |s|
  {
    var i := IndexOf(s, sep);
    if i < |s| {
      var tail := Split(s[i + 1..], sep);
      assert Split(s, sep) == [s[..i]] + tail;
      JoinSplit(s[i + 1..], sep);
      assert ([s[..i]] + tail)[1..] == tail;
      assert Join(Split(s, sep), sep) == s[..i] + [sep] + Join(tail, sep);
      assert s == s[..i] + [sep] + s[i + 1..];
    } else {
      assert Split(s, sep) == [s];
    }
  }

  lemma {:induction false} SplitJoin(ts: seq<string>, sep: char)
    requires |ts| >= 1
    requires forall k :: 0 <= k < |ts| ==> sep !in ts[k]
    ensures Split(Join(ts, sep), sep) == ts
    decreases |ts|
  {
    assert sep !in ts[0];
    if |ts| == 1 {
      IndexOfAbsent(ts[0], sep);
    } else {
      SplitJoin(ts[1..], sep);
      SplitJoinStep(ts[0], ts[1..], sep);
      assert ts == [ts[0]] + ts[1..];
    }
  }

  /** One piece in front of a joined tail splits off again. */
  lemma SplitJoinStep(a: string, rest: seq<string>, sep: char)
    requires |rest| >= 1 && sep !in a
    requires Split(Join(rest, sep), sep) == rest
    ensures Split(Join([a] + rest, sep), sep) == [a] + rest
  {
    var tail := Join(rest, sep);
    var s := Join([a] + rest, sep);
    assert ([a] + rest)[1..] == rest;
    assert s == a + ([sep] + tail);
    IndexOfFirst(a, [sep] + tail, sep);
    SplitAt(s, a, tail, sep);
  }

  lemma SplitAt(s: string, a: string, tail: string, sep: char)
    requires s == a + ([sep] + tail) && IndexOf(s, sep) == |a|
    ensures Split(s, sep) == [a] + Split(tail, sep)
  {
    assert s[..|a|] == a;
    assert s[|a| + 1..] == tail;
  }

  lemma {:induction false} IndexOfAbsent(s: string, c: char)
    requires c !in s
    ensures IndexOf(s, c) == |s|
    decreases |s|
  {
    if s != [] {
      IndexOfAbsent(s[1..], c);
    }
  }

  lemma {:induction false} IndexOfFirst(a: string, b: string, c: char)
    requires c !in a && |b| >= 1 && b[0] == c
    ensures IndexOf(a + b, c) == |a|
    decreases |a|
  {
    if a != [] {
      IndexOfFirst(a[1..], b, c);
      assert (a + b)[1..] == a[1..] + b;
    }
  }

  /** `professions`: the argument at the offset (default 0), split on single spaces. */
  function Professions(args: seq<string>, offset: Option<nat>): (r: Option<seq<string>>)
    ensures r.Some? <==> offset.GetOr(0) < |args|
    ensures r.Some? ==> |r.value| >= 1 && Join(r.value, ' ') == args[offset.GetOr(0)]
    ensures r.Some? ==> forall k :: 0 <= k < |r.value| ==> ' ' !in r.value[k]
  {
    var off := offset.GetOr(0);
    if off < |args| then
      JoinSplit(args[off], ' ');
      Some(Split(args[off], ' '))
    else None
  }

  /** `species`: the argument just after the offset (default 0). */
  function SpeciesArg(args: seq<string>, offset: Option<nat>): (r: Option<string>)
    ensures r.Some? <==> offset.GetOr(0) + 1 < |args|
    ensures r.Some? ==> r.value == args[offset.GetOr(0) + 1]
  {
    var off := offset.GetOr(0);
    if off + 1 < |args| then Some(args[off + 1]) else None
  }

  predicate IsLower(c: char) {
    'a' <= c <= 'z'
  }

  /** `find`: the position of the first character of `s` that is not lowercase. */
  function FindNonLower(s: string): (r: Option<nat>)
    ensures r.None? <==> forall i :: 0 <= i < |s| ==> IsLower(s[i])
    ensures r.Some? ==> r.value < |s| && !IsLower(s[r.value]) && forall i :: 0 <= i < r.value ==> IsLower(s[i])
  {
    if s == [] then None
    else if !IsLower(s[0]) then Some(0)
    else match FindNonLower(s[1..])
      case None => None
      case Some(k) => Some(k + 1)
  }

  /** May appear in the name part of a profession identifier. */
  predicate IsNameChar(c: char) {
    IsLower(c) || c == '_'
  }

  /** `find`: the position of the first character of `s` that is neither lowercase nor `_`. */
  function FindNonName(s: string): (r: Option<nat>)
    ensures r.None? <==> forall i :: 0 <= i < |s| ==> IsNameChar(s[i])
    ensures r.Some? ==> r.value < |s| && !IsNameChar(s[r.value]) && forall i :: 0 <= i < r.value ==> IsNameChar(s[i])
  {
    if s == [] then None
    else if !IsNameChar(s[0]) then Some(0)
    else match FindNonName(s[1..])
      case None => None
      case Some(k) => Some(k + 1)
  }

  /** `chars().rev()`: the characters last to first. */
  function Reverse(s: string): (r: string)
    ensures |r| == |s| && forall i :: 0 <= i < |s| ==> r[i] == s[|s| - 1 - i]
  {
    if s == [] then [] else Reverse(s[1..]) + [s[0]]
  }

  /** A species is more than one character long and all lowercase. */
  predicate IsValidSpecies(s: string) {
    |s| > 1 && forall i :: 0 <= i < |s| ==> IsLower(s[i])
  }

  /** The source's test: longer than one, and `find` meets no character that is not lowercase. */
  lemma IsValidSpeciesAsFound(s: string)
    ensures IsValidSpecies(s) <==> |s| > 1 && FindNonLower(s).None?
  {
  }

  /**
   * Longer than two characters, everything before the last two lowercase or
   * `_`, then `_`, then one digit in `[minLevel, maxLevel)`.
   */
  predicate IsValidProfession(p: string, minLevel: nat, maxLevel: nat) {
    |p| > 2 &&
    (forall i :: 0 <= i < |p| - 2 ==> IsNameChar(p[i])) &&
    p[|p| - 2] == '_' &&
    IsDigit(p[|p| - 1]) && minLevel <= DigitValue(p[|p| - 1]) < maxLevel
  }

  /**
   * The source's test reads the identifier from the back: after skipping two
   * characters of the reversed string `find` meets no character that is
   * neither lowercase nor `_`, the second reversed character is `_`, and the
   * string ends with a digit in range.
   */
  lemma IsValidProfessionAsFound(p: string, minLevel: nat, maxLevel: nat)
    ensures IsValidProfession(p, minLevel, maxLevel) <==>
      |p| > 2 && FindNonName(Reverse(p)[2..]).None? && Reverse(p)[1] == '_' &&
      IsDigit(Reverse(p)[0]) && minLevel <= DigitValue(Reverse(p)[0]) < maxLevel
  {
    if |p| > 2 {
      var tail := Reverse(p)[2..];
      if FindNonName(tail).None? {
        forall i | 0 <= i < |p| - 2
          ensures IsNameChar(p[i])
        {
          assert tail[|p| - 3 - i] == p[i];
        }
      }
      if forall i :: 0 <= i < |p| - 2 ==> IsNameChar(p[i]) {
        forall j | 0 <= j < |tail|
          ensures IsNameChar(tail[j])
        {
          assert tail[j] == p[|p| - 3 - j];
        }
      }
    }
  }

  /** The identifier of career `name` at `level`: `name_level`. */
  function ProfessionId(name: string, level: nat): (p: string)
    requires level < 10
    ensures |p| == |name| + 2 && p[..|name|] == name
  {
    name + ['_', DigitChar(level)]
  }

  /** Building an identifier from a name and a level gives a valid one exactly when both parts are acceptable. */
  lemma ProfessionIdValid(name: string, level: nat, minLevel: nat, maxLevel: nat)
    requires level < 10
    ensures IsValidProfession(ProfessionId(name, level), minLevel, maxLevel) <==>
      |name| >= 1 && (forall i :: 0 <= i < |name| ==> IsNameChar(name[i])) && minLevel <= level < maxLevel
  {
    var p := ProfessionId(name, level);
    assert p[|p| - 1] == DigitChar(level);
    if |name| >= 1 && (forall i :: 0 <= i < |name| ==> IsNameChar(name[i])) {
      assert forall i :: 0 <= i < |p| - 2 ==> p[i] == name[i];
    }
    if IsValidProfession(p, minLevel, maxLevel) {
      assert forall i :: 0 <= i < |name| ==> name[i] == p[i];
    }
  }

  /** Every valid identifier is the identifier of its name part at its level. */
  lemma ValidProfessionParses(p: string, minLevel: nat, maxLevel: nat)
    requires IsValidProfession(p, minLevel, maxLevel)
    ensures DigitValue(p[|p| - 1]) < 10
    ensures p == ProfessionId(p[..|p| - 2], DigitValue(p[|p| - 1]))
  {
    var q := ProfessionId(p[..|p| - 2], DigitValue(p[|p| - 1]));
    assert q[|p| - 1] == p[|p| - 1];
    assert forall i :: 0 <= i < |p| ==> p[i] == q[i];
  }

  /** `validate_professions`: every piece must be a valid profession identifier. */
  function ValidateProfessions(args: seq<string>, offset: Option<nat>, minLevel: nat, maxLevel: nat)
    : (r: Result<seq<string>, CommandError>)
    requires Professions(args, offset).Some?
    ensures r.Ok? <==>
      forall k :: 0 <= k < |Professions(args, offset).value| ==>
        IsValidProfession(Professions(args, offset).value[k], minLevel, maxLevel)
    ensures r.Ok? ==> r.value == args
    ensures r.Err? ==> r.error == InvalidArguments
  {
    var ps := Professions(args, offset).value;
    if exists k :: 0 <= k < |ps| && !IsValidProfession(ps[k], minLevel, maxLevel) then Err(InvalidArguments)
    else Ok(args)
  }

  /** `validate_species`: the species argument must be a valid species name. */
  function ValidateSpecies(args: seq<string>, offset: Option<nat>): (r: Result<seq<string>, CommandError>)
    requires SpeciesArg(args, offset).Some?
    ensures r.Ok? <==> IsValidSpecies(args[offset.GetOr(0) + 1])
    ensures r.Ok? ==> r.value == args
    ensures r.Err? ==> r.error == InvalidArguments
  {
    if !IsValidSpecies(SpeciesArg(args, offset).value) then Err(InvalidArguments) else Ok(args)
  }

  /** A doubled space leaves an empty piece, which is never a valid identifier. */
  lemma EmptyPieceRejected(args: seq<string>, offset: Option<nat>, minLevel: nat, maxLevel: nat)
    requires Professions(args, offset).Some? && "" in Professions(args, offset).value
    ensures ValidateProfessions(args, offset, minLevel, maxLevel) == Err(InvalidArguments)
  {
  }

  lemma ProfessionExamples()
    ensures IsValidProfession("a_b_3", 1, 4)
    ensures !IsValidProfession("a_b_4", 1, 4)
    ensures !IsValidProfession("", 1, 4)
  {
  }

  /** The identifiers and species names the command examples use. */
  lemma ArgumentExamples()
    ensures IsValidProfession("aaaa_1", 1, 4) && IsValidProfession("bb_bb_2", 1, 4)
    ensures IsValidProfession("your_mother_3", 1, 4) && IsValidProfession("your_father_2", 1, 4)
    ensures !IsValidProfession("your_father_8", 1, 4) && !IsValidProfession("generate-npc", 1, 4)
    ensures IsValidSpecies("aaaa") && IsValidSpecies("thebest")
  {
  }

  lemma SplitExample(args: seq<string>)
    requires args == ["aaaa bb_bb"]
    ensures Professions(args, None) == Some(["aaaa", "bb_bb"])
  {
    assert ' ' !in "aaaa" && ' ' !in "bb_bb";
    assert "aaaa" + " " + "bb_bb" == "aaaa bb_bb";
    SplitTwo("aaaa", "bb_bb");
  }

  /** A profession argument of two space-separated pieces is accepted exactly when both pieces are. */
  lemma ValidateTwoPieces(args: seq<string>, offset: Option<nat>, a: string, b: string, minLevel: nat, maxLevel: nat)
    requires offset.GetOr(0) < |args| && args[offset.GetOr(0)] == a + " " + b
    requires ' ' !in a && ' ' !in b
    ensures ValidateProfessions(args, offset, minLevel, maxLevel).Ok? <==>
      IsValidProfession(a, minLevel, maxLevel) && IsValidProfession(b, minLevel, maxLevel)
  {
    SplitTwo(a, b);
    var ps := Professions(args, offset).value;
    assert ps == [a, b];
    assert ps[0] == a && ps[1] == b;
  }

  lemma ValidateExamples(args: seq<string>)
    requires args == ["generate-npc", "aaaa_1 bb_bb_2", "aaaa"]
    ensures ValidateProfessions(args, Some(1), 1, 4).Ok?
    ensures ValidateSpecies(args, Some(1)).Ok?
  {
    assert ' ' !in "aaaa_1" && ' ' !in "bb_bb_2";
    assert args[1] == "aaaa_1" + " " + "bb_bb_2";
    ValidateTwoPieces(args, Some(1), "aaaa_1", "bb_bb_2", 1, 4);
    ArgumentExamples();
  }

  /** Two space-free pieces joined by one space split back into those two. */
  lemma SplitTwo(a: string, b: string)
    requires ' ' !in a && ' ' !in b
    ensures Split(a + " " + b, ' ') == [a, b]
  {
    SplitJoin([a, b], ' ');
    assert Join([a, b], ' ') == a + " " + b;
  }

  /** A space-free argument is a single piece. */
  lemma SplitOne(a: string)
    requires ' ' !in a
    ensures Split(a, ' ') == [a]
  {
    IndexOfAbsent(a, ' ');
  }
}

=== FILE: dice.dfy ===
/**
 * The random provider the generator is given (`RandomProvider::generate`),
 * replaced by an explicit stream of rolls: a call for a dice expression with
 * `m` dice consumes the next `m` rolls of the stream. Whether a roll really
 * lies in `[1, face]` is the provider's business; the lemmas state what
 * follows when it does (`FitsDice`).
 */
module Dice {
  import opened Wrappers
  import opened Models

  /** A value obtained from the roll stream, together with the rolls not yet used. */
  datatype Drawn<+T> = Drawn(value: T, rest: seq<nat>)

  /**
   * Why a generation call stops. The first four are the aborts of the
   * source; `RollsExhausted` only says the scripted stream was too short.
   */
  datatype GenError =
    | InvalidAttributeReference
    | ForbiddenTalentDependency
    | SampleDomainTooSmall
    | TalentIndexOutOfRange
    | RollsExhausted

  function Sum(s: seq<nat>): nat {
    if s == [] then 0 else s[0] + Sum(s[1..])
  }

  /** `rolls` are what a fair provider could answer for `dices`: roll i lies in `[1, dices[i]]`. */
  ghost predicate FitsDice(dices: seq<nat>, rolls: seq<nat>) {
    |dices| <= |rolls| && forall i :: 0 <= i < |dices| ==> 1 <= rolls[i] <= dices[i]
  }

  /** `rest` is what remains of `rolls` after some prefix was consumed. */
  ghost predicate SuffixOf(rest: seq<nat>, rolls: seq<nat>) {
    |rest| <= |rolls| && rest == rolls[|rolls| - |rest|..]
  }

  /** The provider's answer for `base`: its base value plus one roll per die. */
  function Generate(base: GenerationBase, rolls: seq<nat>): (r: Result<Drawn<nat>, GenError>)
    ensures r.Ok? <==> |base.dices| <= |rolls|
    ensures r.Err? ==> r.error == RollsExhausted
    ensures r.Ok? ==> r.value.rest == rolls[|base.dices|..]
    ensures r.Ok? ==> r.value.value == base.baseValue + Sum(rolls[..|base.dices|])
    ensures r.Ok? && base.dices == [] ==> r.value.value == base.baseValue && r.value.rest == rolls
  {
    var m := |base.dices|;
    if m <= |rolls| then
      var v: nat := base.baseValue + Sum(rolls[..m]);
      Ok(Drawn(v, rolls[m..]))
    else Err(RollsExhausted)
  }

  /** One die of `face` faces: the answer is the next roll. */
  lemma SingleDie(face: nat, rolls: seq<nat>)
    ensures rolls != [] ==> Generate(GenerationBase(0, [face]), rolls) == Ok(Drawn(rolls[0], rolls[1..]))
    ensures rolls == [] ==> Generate(GenerationBase(0, [face]), rolls) == Err(RollsExhausted)
  {
    if rolls != [] {
      assert rolls[..1] == [rolls[0]];
      assert Sum([rolls[0]]) == rolls[0] + Sum([]);
    }
  }

  lemma {:induction false} SumBounds(dices: seq<nat>, rolls: seq<nat>)
    requires FitsDice(dices, rolls)
    ensures |dices| <= Sum(rolls[..|dices|]) <= Sum(dices)
    decreases |dices|
  {
    if dices != [] {
      SumBounds(dices[1..], rolls[1..]);
      assert rolls[..|dices|][1..] == rolls[1..][..|dices| - 1];
    }
  }

  /** With fair rolls the answer lies in `[base + number of dice, base + sum of faces]`. */
  lemma GenerateBounds(base: GenerationBase, rolls: seq<nat>)
    requires FitsDice(base.dices, rolls)
    ensures Generate(base, rolls).Ok?
    ensures base.baseValue + |base.dices| <= Generate(base, rolls).value.value
                                          <= base.baseValue + Sum(base.dices)
  {
    SumBounds(base.dices, rolls);
  }

  lemma SuffixTransitive(a: seq<nat>, b: seq<nat>, c: seq<nat>)
    requires SuffixOf(a, b) && SuffixOf(b, c)
    ensures SuffixOf(a, c)
  {
    assert c[|c| - |b|..][|b| - |a|..] == c[|c| - |a|..];
  }
}

=== FILE: digits.dfy ===
/** Decimal digits: reading one character as a digit, and writing a number in decimal. */
module Digits {
  predicate IsDigit(c: char) {
    '0' <= c <= '9'
  }

  function DigitValue(c: char): (d: nat)
    requires IsDigit(c)
    ensures d < 10
  {
    (c as int - '0' as int) as nat
  }

  function DigitChar(d: nat): (c: char)
    requires d < 10
    ensures IsDigit(c) && DigitValue(c) == d
  {
    ('0' as int + d) as char
  }

  predicate AllDigits(s: string) {
    forall i :: 0 <= i < |s| ==> IsDigit(s[i])
  }

  /** `to_string` of an unsigned number: its decimal digits, most significant first, no leading zeros. */
  function NatToString(n: nat): (r: string)
    ensures |r| >= 1 && AllDigits(r)
    decreases n
  {
    if n < 10 then [DigitChar(n)] else NatToString(n / 10) + [DigitChar(n % 10)]
  }

  /** Only zero itself is written with a leading `0`. */
  lemma {:induction false} NoLeadingZero(n: nat)
    ensures |NatToString(n)| > 1 ==> NatToString(n)[0] != '0'
    ensures NatToString(n)[0] == '0' <==> n == 0
    decreases n
  {
    if n >= 10 {
      NoLeadingZero(n / 10);
    }
  }

  /** The number a string of decimal digits denotes. */
  function DigitsValue(s: string): nat
    requires AllDigits(s)
  {
    if s == [] then 0 else DigitsValue(s[..|s| - 1]) * 10 + DigitValue(s[|s| - 1])
  }

  lemma DigitsValueOne(s: string)
    requires |s| == 1 && AllDigits(s)
    ensures DigitsValue(s) == DigitValue(s[0])
  {
    assert s[..0] == [];
  }

  /** Reading back what `NatToString` wrote gives the number. */
  lemma {:induction false} NatToStringValue(n: nat)
    ensures DigitsValue(NatToString(n)) == n
    decreases n
  {
    if n < 10 {
      DigitsValueOne(NatToString(n));
    } else {
      NatToStringValue(n / 10);
      var s := NatToString(n);
      assert s[..|s| - 1] == NatToString(n / 10);
    }
  }

  /** Different numbers are written differently. */
  lemma NatToStringInjective(m: nat, n: nat)
    requires NatToString(m) == NatToString(n)
    ensures m == n
  {
    NatToStringValue(m);
    NatToStringValue(n);
  }

  function Pow10(d: nat): (p: nat)
    ensures p >= 1
  {
    if d == 0 then 1 else 10 * Pow10(d - 1)
  }

  /** A number below `10^d` is written with at most `d` digits. */
  lemma {:induction false} NatToStringLength(n: nat, d: nat)
    requires d >= 1 && n < Pow10(d)
    ensures |NatToString(n)| <= d
    decreases d
  {
    if n >= 10 {
      assert d >= 2;
      NatToStringLength(n / 10, d - 1);
    }
  }

  /** A `u32` is written with at most ten digits. */
  lemma U32Digits(n: nat)
    requires n < 0x1_0000_0000
    ensures |NatToString(n)| <= 10
  {
    assert Pow10(10) == 10_000_000_000;
    NatToStringLength(n, 10);
  }
}

=== FILE: displayer.dfy ===
/**
 * The console rendering of a character (`ConsoleCharacterDisplayer`): four
 * two-row tables (talents, skills, trappings, general skills), each cut into
 * chunks that share one width per table. A panic of the source (an empty
 * table, a division by zero) is `None`.
 */
module Displayer {
  import opened Wrappers
  import opened Models
  import opened Digits
  import AttributesIter
  import Generator

  const TableDelimiter: char := '|'
  const MaxConsoleDisplayLength: nat := 60

  const TalentName: string := "Talent        "
  const TalentLevel: string := "Levels        "
  const SkillName: string := "Skill         "
  const SkillValue: string := "Values        "
  const TrappingName: string := "Trapping      "
  const TrappingCount: string := "Count         "
  const GeneralSkillName: string := "General Skill "
  const GeneralSkillValue: string := "Level         "

  const TalentsHeader: string := "---Talents---"
  const SkillsHeader: string := "---Skills---"
  const TrappingsHeader: string := "---Trappings---"
  const GeneralSkillsHeader: string := "---General Skills---"

  function MaxNat(a: nat, b: nat): nat {
    if a < b then b else a
  }

  function Spaces(n: nat): (r: string)
    ensures |r| == n && forall i :: 0 <= i < n ==> r[i] == ' '
  {
    if n == 0 then "" else " " + Spaces(n - 1)
  }

  /** One cell: the text left-justified to `width`, then the delimiter. */
  function CreateTableRecord(s: string, width: nat): (r: string)
    requires |s| <= width
    ensures |r| == width + 1
    ensures r[..|s|] == s
    ensures forall i :: |s| <= i < width ==> r[i] == ' '
    ensures r[width] == TableDelimiter
  {
    s + Spaces(width - |s|) + [TableDelimiter]
  }

  /** A column of the table: the text of its upper and its lower row. */
  datatype Cell = Cell(top: string, bottom: string)

  /** Every text of `cells` fits in `width`. */
  predicate Fits(cells: seq<Cell>, width: nat) {
    forall c :: c in cells ==> |c.top| <= width && |c.bottom| <= width
  }

  /** The longest text of either row. */
  function Width(cells: seq<Cell>): (w: nat)
    ensures Fits(cells, w)
    ensures cells == [] ==> w == 0
  {
    if cells == [] then 0
    else
      var rest := Width(cells[1..]);
      assert forall c :: c in cells[1..] ==> c in cells;
      assert forall c :: c in cells ==> c == cells[0] || c in cells[1..];
      MaxNat(MaxNat(|cells[0].top|, |cells[0].bottom|), rest)
  }

  /** The width is the length of some text of the table, so no narrower width fits. */
  lemma {:induction false} WidthAttained(cells: seq<Cell>)
    requires cells != []
    ensures exists i :: 0 <= i < |cells| && (Width(cells) == |cells[i].top| || Width(cells) == |cells[i].bottom|)
  {
    if |cells| > 1 && Width(cells) == Width(cells[1..]) {
      WidthAttained(cells[1..]);
      var i :| 0 <= i < |cells[1..]| && (Width(cells) == |cells[1..][i].top| || Width(cells) == |cells[1..][i].bottom|);
      assert cells[i + 1] == cells[1..][i];
    } else {
      assert Width(cells) == |cells[0].top| || Width(cells) == |cells[0].bottom|;
    }
  }

  /**
   * Cells per line as the source computes them: the space left after the
   * longer prefix divided by the width, at least one. The delimiters are
   * not counted.
   */
  function ElemCountAsWritten(prefixLen: nat, width: nat): (k: nat)
    requires prefixLen <= MaxConsoleDisplayLength && width >= 1
    ensures k >= 1
    ensures k == 1 || width * k <= MaxConsoleDisplayLength - prefixLen
    ensures MaxConsoleDisplayLength - prefixLen < width * (k + 1)
  {
    var q := (MaxConsoleDisplayLength - prefixLen) / width;
    if q >= 1 then q else 1
  }

  /**
   * The contract of `ElemCountAsWritten` has one solution: any count that is
   * at least one, fits the space unless it is one, and would overflow with
   * one more cell is the source's count.
   */
  lemma ElemCountAsWrittenUnique(prefixLen: nat, width: nat, k: nat)
    requires prefixLen <= MaxConsoleDisplayLength && width >= 1
    requires k >= 1
    requires k == 1 || width * k <= MaxConsoleDisplayLength - prefixLen
    requires MaxConsoleDisplayLength - prefixLen < width * (k + 1)
    ensures k == ElemCountAsWritten(prefixLen, width)
  {
    var c := ElemCountAsWritten(prefixLen, width);
    if k < c {
      MulMono(width, k + 1, c);
      assert false;
    } else if c < k {
      MulMono(width, c + 1, k);
      assert false;
    }
  }

  /**
   * Cells per line counting the delimiter after the prefix and after every
   * cell: as many as keep the line within the console width, at least one.
   */
  function ElemCount(prefixLen: nat, width: nat): (k: nat)
    requires prefixLen < MaxConsoleDisplayLength
    ensures k >= 1
    ensures k == 1 || prefixLen + 1 + (width + 1) * k <= MaxConsoleDisplayLength
    ensures prefixLen + 1 + (width + 1) * (k + 1) > MaxConsoleDisplayLength
  {
    var q := (MaxConsoleDisplayLength - 1 - prefixLen) / (width + 1);
    if q >= 1 then q else 1
  }

  /** Consecutive chunks of `k` cells; only the last may be shorter. */
  function Chunks(cells: seq<Cell>, k: nat): (r: seq<seq<Cell>>)
    requires k >= 1
    ensures forall j :: 0 <= j < |r| ==> 1 <= |r[j]| <= k
    ensures forall j :: 0 <= j < |r| - 1 ==> |r[j]| == k
    ensures forall j, c :: 0 <= j < |r| && c in r[j] ==> c in cells
    ensures cells != [] ==> |r| >= 1 && |r[0]| == if |cells| < k then |cells| else k
    decreases |cells|
  {
    if cells == [] then []
    else if |cells| <= k then [cells]
    else
      var rest := Chunks(cells[k..], k);
      assert forall c :: c in cells[k..] ==> c in cells;
      [cells[..k]] + rest
  }

  function Flatten(chs: seq<seq<Cell>>): seq<Cell> {
    if chs == [] then [] else chs[0] + Flatten(chs[1..])
  }

  /** Chunking loses, duplicates and reorders nothing. */
  lemma {:induction false} ChunksFlatten(cells: seq<Cell>, k: nat)
    requires k >= 1
    ensures Flatten(Chunks(cells, k)) == cells
    decreases |cells|
  {
    if |cells| > k {
      ChunksFlatten(cells[k..], k);
      assert Chunks(cells, k)[1..] == Chunks(cells[k..], k);
    }
  }

  /** Cell `k * j + q` (with `q < k`) is cell `q` of chunk `j`. */
  lemma {:induction false} ChunkIndex(cells: seq<Cell>, k: nat, j: nat, q: nat)
    requires k >= 1 && q < k && k * j + q < |cells|
    ensures j < |Chunks(cells, k)| && q < |Chunks(cells, k)[j]|
    ensures Chunks(cells, k)[j][q] == cells[k * j + q]
    decreases j
  {
    if j == 0 {
      assert Chunks(cells, k)[0] == if |cells| <= k then cells else cells[..k];
    } else {
      MulStep(k, j, q);
      var rest := cells[k..];
      var m := k * (j - 1) + q;
      ChunkIndex(rest, k, j - 1, q);
      ChunksStep(cells, k);
      assert rest[m] == cells[m + k];
    }
  }

  lemma MulStep(k: nat, j: nat, q: nat)
    requires j >= 1
    ensures k * j + q == k * (j - 1) + q + k && k <= k * j + q
  {
  }

  /** Past the first chunk, the chunks are those of the rest of the cells. */
  lemma ChunksStep(cells: seq<Cell>, k: nat)
    requires k >= 1 && |cells| > k
    ensures Chunks(cells, k) == [cells[..k]] + Chunks(cells[k..], k)
    ensures |Chunks(cells, k)| == 1 + |Chunks(cells[k..], k)|
    ensures forall j :: 1 <= j < |Chunks(cells, k)| ==> Chunks(cells, k)[j] == Chunks(cells[k..], k)[j - 1]
  {
  }

  function Tops(cells: seq<Cell>): (r: seq<string>)
    ensures |r| == |cells| && forall i :: 0 <= i < |cells| ==> r[i] == cells[i].top
  {
    if cells == [] then [] else [cells[0].top] + Tops(cells[1..])
  }

  function Bottoms(cells: seq<Cell>): (r: seq<string>)
    ensures |r| == |cells| && forall i :: 0 <= i < |cells| ==> r[i] == cells[i].bottom
  {
    if cells == [] then [] else [cells[0].bottom] + Bottoms(cells[1..])
  }

  /** The cells of one row, one after the other. */
  function Records(ss: seq<string>, width: nat): (r: string)
    requires forall i :: 0 <= i < |ss| ==> |ss[i]| <= width
    ensures |r| == (width + 1) * |ss|
  {
    if ss == [] then "" else CreateTableRecord(ss[0], width) + Records(ss[1..], width)
  }

  /** The records of two rows one after the other are the records of the joined row. */
  lemma {:induction false} RecordsAppend(a: seq<string>, b: seq<string>, width: nat)
    requires forall i :: 0 <= i < |a| ==> |a[i]| <= width
    requires forall i :: 0 <= i < |b| ==> |b[i]| <= width
    ensures forall i :: 0 <= i < |a + b| ==> |(a + b)[i]| <= width
    ensures Records(a + b, width) == Records(a, width) + Records(b, width)
    decreases |a|
  {
    assert forall i :: 0 <= i < |a + b| ==> (a + b)[i] == if i < |a| then a[i] else b[i - |a|];
    if a == [] {
      assert a + b == b;
    } else {
      assert (a + b)[0] == a[0];
      assert (a + b)[1..] == a[1..] + b;
      RecordsAppend(a[1..], b, width);
      calc {
        Records(a + b, width);
        CreateTableRecord(a[0], width) + Records(a[1..] + b, width);
        CreateTableRecord(a[0], width) + (Records(a[1..], width) + Records(b, width));
        (CreateTableRecord(a[0], width) + Records(a[1..], width)) + Records(b, width);
        Records(a, width) + Records(b, width);
      }
    }
  }

  /** A row's records split around text `i`. */
  lemma RecordsSplit(ss: seq<string>, width: nat, i: nat)
    requires forall j :: 0 <= j < |ss| ==> |ss[j]| <= width
    requires i < |ss|
    ensures Records(ss, width) ==
      Records(ss[..i], width) + CreateTableRecord(ss[i], width) + Records(ss[i + 1..], width)
  {
    var before, here, after := ss[..i], [ss[i]], ss[i + 1..];
    assert ss == before + (here + after);
    RecordsAppend(here, after, width);
    RecordsAppend(before, here + after, width);
    assert Records(here, width) == CreateTableRecord(ss[i], width) by {
      assert here[1..] == [];
    }
  }

  /** The `i`-th block of `n` characters of `x + y + z`, when `x` holds `i` blocks and `y` one. */
  lemma BlockAt(r: string, x: string, y: string, z: string, n: nat, i: nat)
    requires r == x + y + z && |x| == n * i && |y| == n
    ensures n * (i + 1) <= |r| && r[n * i..n * (i + 1)] == y
  {
    assert n * (i + 1) == n * i + n;
    assert r[|x|..|x| + |y|] == y;
  }

  /** Text `i` of a row is the `i`-th record of the row's line, in input order. */
  lemma RecordsAt(ss: seq<string>, width: nat, i: nat)
    requires forall j :: 0 <= j < |ss| ==> |ss[j]| <= width
    requires i < |ss|
    ensures (width + 1) * (i + 1) <= |Records(ss, width)|
    ensures Records(ss, width)[(width + 1) * i..(width + 1) * (i + 1)] == CreateTableRecord(ss[i], width)
  {
    RecordsSplit(ss, width, i);
    BlockAt(Records(ss, width), Records(ss[..i], width), CreateTableRecord(ss[i], width),
            Records(ss[i + 1..], width), width + 1, i);
  }

  /** The upper and the lower line of one chunk. */
  function ChunkLines(topPrefix: string, bottomPrefix: string, chunk: seq<Cell>, width: nat): (r: seq<string>)
    requires Fits(chunk, width)
    ensures |r| == 2
    ensures |r[0]| == |topPrefix| + 1 + (width + 1) * |chunk|
    ensures |r[1]| == |bottomPrefix| + 1 + (width + 1) * |chunk|
    ensures r[0][..|topPrefix| + 1] == topPrefix + [TableDelimiter]
    ensures r[1][..|bottomPrefix| + 1] == bottomPrefix + [TableDelimiter]
    ensures r[0][|topPrefix| + 1..] == Records(Tops(chunk), width)
    ensures r[1][|bottomPrefix| + 1..] == Records(Bottoms(chunk), width)
  {
    assert forall i :: 0 <= i < |chunk| ==> chunk[i] in chunk;
    [topPrefix + [TableDelimiter] + Records(Tops(chunk), width),
     bottomPrefix + [TableDelimiter] + Records(Bottoms(chunk), width)]
  }

  /** All lines of a table, two per chunk. */
  function TableLines(topPrefix: string, bottomPrefix: string, chs: seq<seq<Cell>>, width: nat): (r: seq<string>)
    requires forall j :: 0 <= j < |chs| ==> Fits(chs[j], width)
    ensures |r| == 2 * |chs|
  {
    if chs == [] then []
    else ChunkLines(topPrefix, bottomPrefix, chs[0], width) + TableLines(topPrefix, bottomPrefix, chs[1..], width)
  }

  /** Lines `2j` and `2j + 1` are the two lines of chunk `j`. */
  lemma {:induction false} TableLinesAt(topPrefix: string, bottomPrefix: string, chs: seq<seq<Cell>>, width: nat, j: nat)
    requires forall j :: 0 <= j < |chs| ==> Fits(chs[j], width)
    requires j < |chs|
    ensures TableLines(topPrefix, bottomPrefix, chs, width)[2 * j..2 * j + 2] == ChunkLines(topPrefix, bottomPrefix, chs[j], width)
    decreases j
  {
    if j > 0 {
      TableLinesAt(topPrefix, bottomPrefix, chs[1..], width, j - 1);
    }
  }

  /** Every line followed by a newline. */
  function Unlines(ls: seq<string>): string {
    if ls == [] then "" else ls[0] + "\n" + Unlines(ls[1..])
  }

  /** The lines of the table of `cells` with `k` cells per line. */
  function LinesWith(topPrefix: string, bottomPrefix: string, cells: seq<Cell>, k: nat): (r: seq<string>)
    requires k >= 1
    ensures |r| == 2 * |Chunks(cells, k)|
    ensures cells != [] ==> |r| >= 2
  {
    var w := Width(cells);
    var chs := Chunks(cells, k);
    assert forall j :: 0 <= j < |chs| ==> Fits(chs[j], w);
    TableLines(topPrefix, bottomPrefix, chs, w)
  }

  /** The longer of the two prefixes, which the count of cells per line is based on. */
  function PrefixLen(topPrefix: string, bottomPrefix: string): nat {
    MaxNat(|topPrefix|, |bottomPrefix|)
  }

  /**
   * The lines of `create_table!`: `None` where the source panics, on an
   * empty row or on a zero width; otherwise two lines per chunk, with the
   * corrected count of cells per line.
   */
  function CreateTableLines(topPrefix: string, bottomPrefix: string, cells: seq<Cell>): (r: Option<seq<string>>)
    requires PrefixLen(topPrefix, bottomPrefix) < MaxConsoleDisplayLength
    ensures r.Some? <==> Width(cells) >= 1
    ensures r.Some? ==> |r.value| >= 2
  {
    var w := Width(cells);
    if cells == [] || w == 0 then None
    else Some(LinesWith(topPrefix, bottomPrefix, cells, ElemCount(PrefixLen(topPrefix, bottomPrefix), w)))
  }

  /** The lines of `create_table!` with the source's count of cells per line. */
  function CreateTableLinesAsWritten(topPrefix: string, bottomPrefix: string, cells: seq<Cell>): (r: Option<seq<string>>)
    requires PrefixLen(topPrefix, bottomPrefix) <= MaxConsoleDisplayLength
    ensures r.Some? <==> Width(cells) >= 1
    ensures r.Some? ==> |r.value| >= 2
  {
    var w := Width(cells);
    if cells == [] || w == 0 then None
    else Some(LinesWith(topPrefix, bottomPrefix, cells, ElemCountAsWritten(PrefixLen(topPrefix, bottomPrefix), w)))
  }

  /** `create_table!` as text: every line followed by a newline. */
  function CreateTable(topPrefix: string, bottomPrefix: string, cells: seq<Cell>): (r: Option<string>)
    requires PrefixLen(topPrefix, bottomPrefix) < MaxConsoleDisplayLength
    ensures r.Some? <==> Width(cells) >= 1
    ensures r.Some? ==> r.value == Unlines(CreateTableLines(topPrefix, bottomPrefix, cells).value)
  {
    match CreateTableLines(topPrefix, bottomPrefix, cells)
    case None => None
    case Some(ls) => Some(Unlines(ls))
  }

  /** `create_table!` as text, with the source's count of cells per line. */
  function CreateTableAsWritten(topPrefix: string, bottomPrefix: string, cells: seq<Cell>): (r: Option<string>)
    requires PrefixLen(topPrefix, bottomPrefix) <= MaxConsoleDisplayLength
    ensures r.Some? <==> Width(cells) >= 1
    ensures r.Some? ==> r.value == Unlines(CreateTableLinesAsWritten(topPrefix, bottomPrefix, cells).value)
  {
    match CreateTableLinesAsWritten(topPrefix, bottomPrefix, cells)
    case None => None
    case Some(ls) => Some(Unlines(ls))
  }

  lemma MulMono(a: nat, b: nat, c: nat)
    requires b <= c
    ensures a * b <= a * c
  {
  }

  /** Lines `2j` and `2j + 1` of a table are the two lines of its `j`-th chunk. */
  lemma LinesWithAt(topPrefix: string, bottomPrefix: string, cells: seq<Cell>, k: nat, j: nat)
    requires k >= 1 && j < |Chunks(cells, k)|
    ensures Fits(Chunks(cells, k)[j], Width(cells))
    ensures |LinesWith(topPrefix, bottomPrefix, cells, k)| >= 2 * j + 2
    ensures LinesWith(topPrefix, bottomPrefix, cells, k)[2 * j..2 * j + 2] ==
      ChunkLines(topPrefix, bottomPrefix, Chunks(cells, k)[j], Width(cells))
  {
    var w := Width(cells);
    var chs := Chunks(cells, k);
    assert forall j :: 0 <= j < |chs| ==> Fits(chs[j], w);
    TableLinesAt(topPrefix, bottomPrefix, chs, w, j);
  }

  lemma ChunkLinesBound(topPrefix: string, bottomPrefix: string, chunk: seq<Cell>, width: nat, k: nat, l: nat)
    requires Fits(chunk, width) && |chunk| <= k && l < 2
    ensures |ChunkLines(topPrefix, bottomPrefix, chunk, width)[l]| <= PrefixLen(topPrefix, bottomPrefix) + 1 + (width + 1) * k
  {
    MulMono(width + 1, |chunk|, k);
  }

  /**
   * Each line of a table with `k` cells per line is at most the longer
   * prefix, the delimiter and `k` cells long.
   */
  lemma LineLength(topPrefix: string, bottomPrefix: string, cells: seq<Cell>, width: nat, k: nat, i: nat)
    requires width == Width(cells)
    requires k >= 1 && i < |LinesWith(topPrefix, bottomPrefix, cells, k)|
    ensures |LinesWith(topPrefix, bottomPrefix, cells, k)[i]| <=
      PrefixLen(topPrefix, bottomPrefix) + 1 + (width + 1) * k
  {
    var j, l := i / 2, i % 2;
    LinesWithAt(topPrefix, bottomPrefix, cells, k, j);
    var pair := LinesWith(topPrefix, bottomPrefix, cells, k)[2 * j..2 * j + 2];
    assert |LinesWith(topPrefix, bottomPrefix, cells, k)[i]| == |pair[l]|;
    ChunkLinesBound(topPrefix, bottomPrefix, Chunks(cells, k)[j], width, k, l);
  }

  /**
   * Cell `q` of a chunk is the `q`-th record after the prefix of the chunk's
   * two lines, its upper text above its lower text. With `ChunkIndex` and
   * `LinesWithAt` this places every cell of a table once, in input order.
   */
  lemma ChunkCellAt(topPrefix: string, bottomPrefix: string, chunk: seq<Cell>, width: nat, q: nat)
    requires Fits(chunk, width) && q < |chunk|
    ensures |chunk[q].top| <= width && |chunk[q].bottom| <= width
    ensures var lines := ChunkLines(topPrefix, bottomPrefix, chunk, width);
      (width + 1) * (q + 1) <= |lines[0][|topPrefix| + 1..]| &&
      (width + 1) * (q + 1) <= |lines[1][|bottomPrefix| + 1..]| &&
      lines[0][|topPrefix| + 1..][(width + 1) * q..(width + 1) * (q + 1)] == CreateTableRecord(chunk[q].top, width) &&
      lines[1][|bottomPrefix| + 1..][(width + 1) * q..(width + 1) * (q + 1)] == CreateTableRecord(chunk[q].bottom, width)
  {
    assert chunk[q] in chunk;
    RecordsAt(Tops(chunk), width, q);
    RecordsAt(Bottoms(chunk), width, q);
  }

  /**
   * With the corrected count every line fits the console width, unless a
   * single cell after the prefix is already wider.
   */
  lemma LinesFitConsole(topPrefix: string, bottomPrefix: string, cells: seq<Cell>, i: nat)
    requires PrefixLen(topPrefix, bottomPrefix) < MaxConsoleDisplayLength
    requires Width(cells) >= 1
    requires i < |CreateTableLines(topPrefix, bottomPrefix, cells).value|
    ensures |CreateTableLines(topPrefix, bottomPrefix, cells).value[i]| <=
      MaxNat(MaxConsoleDisplayLength, PrefixLen(topPrefix, bottomPrefix) + Width(cells) + 2)
  {
    var p, w := PrefixLen(topPrefix, bottomPrefix), Width(cells);
    var k := ElemCount(p, w);
    assert CreateTableLines(topPrefix, bottomPrefix, cells).value == LinesWith(topPrefix, bottomPrefix, cells, k);
    LineLength(topPrefix, bottomPrefix, cells, w, k, i);
    FitsConsoleWidth(p, w, k, |LinesWith(topPrefix, bottomPrefix, cells, k)[i]|);
  }

  /** A line within the bound of the corrected count fits, or holds a single cell. */
  lemma FitsConsoleWidth(prefixLen: nat, width: nat, k: nat, len: nat)
    requires prefixLen < MaxConsoleDisplayLength && k == ElemCount(prefixLen, width)
    requires len <= prefixLen + 1 + (width + 1) * k
    ensures len <= MaxNat(MaxConsoleDisplayLength, prefixLen + width + 2)
  {
  }

  /** Forty-six one-character cells: the table the source lays out on one line. */
  function NarrowCells(): (r: seq<Cell>)
    ensures |r| == 46 && forall i :: 0 <= i < |r| ==> r[i] == Cell("a", "1")
  {
    seq(46, i => Cell("a", "1"))
  }

  /**
   * The source's count puts all forty-six cells of width one on one line of
   * 14 + 1 + 46 * 2 = 107 characters.
   */
  lemma NarrowTableOverflows()
    ensures Width(NarrowCells()) == 1
    ensures |CreateTableLinesAsWritten(TalentName, TalentLevel, NarrowCells()).value[0]| == 107
  {
    NarrowWidth();
    assert PrefixLen(TalentName, TalentLevel) == 14;
    assert ElemCountAsWritten(14, 1) == 46;
    LinesWithAt(TalentName, TalentLevel, NarrowCells(), 46, 0);
  }

  /**
   * With the corrected count, a table whose single cell fits after the
   * prefix has every line within the console width.
   */
  lemma TableFitsConsole(topPrefix: string, bottomPrefix: string, cells: seq<Cell>)
    requires PrefixLen(topPrefix, bottomPrefix) + Width(cells) + 2 <= MaxConsoleDisplayLength
    requires Width(cells) >= 1
    ensures forall i :: 0 <= i < |CreateTableLines(topPrefix, bottomPrefix, cells).value| ==>
      |CreateTableLines(topPrefix, bottomPrefix, cells).value[i]| <= MaxConsoleDisplayLength
  {
    forall i | 0 <= i < |CreateTableLines(topPrefix, bottomPrefix, cells).value|
      ensures |CreateTableLines(topPrefix, bottomPrefix, cells).value[i]| <= MaxConsoleDisplayLength
    {
      LinesFitConsole(topPrefix, bottomPrefix, cells, i);
    }
  }

  /**
   * With fourteen-character prefixes and a width of fifteen, the source's
   * count puts three cells on a line of 14 + 1 + 3 * 16 = 63 characters.
   */
  lemma WideTableOverflows(topPrefix: string, bottomPrefix: string, cells: seq<Cell>)
    requires |topPrefix| == 14 && |bottomPrefix| == 14
    requires Width(cells) == 15 && |cells| >= 3
    ensures |CreateTableLinesAsWritten(topPrefix, bottomPrefix, cells).value[0]| == 63
  {
    assert PrefixLen(topPrefix, bottomPrefix) == 14;
    assert ElemCountAsWritten(14, 15) == 3;
    LinesWithAt(topPrefix, bottomPrefix, cells, 3, 0);
  }

  /** The general skills table is fifteen wide: "Ballistic Skill" is its longest text. */
  lemma GeneralWidth(c: Character)
    requires AttributesIter.LevelsBelow(c, 0x1_0000_0000)
    ensures |AttributeCells(AttributesIter.Collect(AttributesIter.New(c)))| == 12
    ensures Width(AttributeCells(AttributesIter.Collect(AttributesIter.New(c)))) == 15
  {
    var items := AttributesIter.Collect(AttributesIter.New(c));
    var cells := AttributeCells(items);
    AttributesIter.CollectBelow(c, 0x1_0000_0000);
    AttributesIter.CollectAll(c);
    AttributesIter.NameLengths();
    forall k | 0 <= k < 12
      ensures |cells[k].top| <= 15 && |cells[k].bottom| <= 15
    {
      U32Digits(items[k].level);
    }
    assert cells[1] in cells;
    WidthAttained(cells);
  }

  /**
   * With the source's count, every character's general skills table opens
   * with a 63-character line, wider than the console.
   */
  lemma GeneralTableOverflows(c: Character)
    requires AttributesIter.LevelsBelow(c, 0x1_0000_0000)
    ensures |CreateTableLinesAsWritten(GeneralSkillName, GeneralSkillValue,
              AttributeCells(AttributesIter.Collect(AttributesIter.New(c)))).value[0]| == 63
  {
    GeneralWidth(c);
    WideTableOverflows(GeneralSkillName, GeneralSkillValue, AttributeCells(AttributesIter.Collect(AttributesIter.New(c))));
  }

  lemma NarrowWidth()
    ensures Width(NarrowCells()) == 1
  {
    var cells := NarrowCells();
    WidthAttained(cells);
    assert cells[0] in cells;
  }

  /** The cells of the talent table: name above, level below. */
  function TalentCells(ts: seq<Talent>): (r: seq<Cell>)
    ensures |r| == |ts| && forall i :: 0 <= i < |ts| ==> r[i] == Cell(ts[i].name, NatToString(ts[i].level))
  {
    if ts == [] then [] else [Cell(ts[0].name, NatToString(ts[0].level))] + TalentCells(ts[1..])
  }

  function SkillCells(ss: seq<Skill>): (r: seq<Cell>)
    ensures |r| == |ss| && forall i :: 0 <= i < |ss| ==> r[i] == Cell(ss[i].name, NatToString(ss[i].value))
  {
    if ss == [] then [] else [Cell(ss[0].name, NatToString(ss[0].value))] + SkillCells(ss[1..])
  }

  function TrappingCells(ts: seq<Trapping>): (r: seq<Cell>)
    ensures |r| == |ts| && forall i :: 0 <= i < |ts| ==> r[i] == Cell(ts[i].name, NatToString(ts[i].count))
  {
    if ts == [] then [] else [Cell(ts[0].name, NatToString(ts[0].count))] + TrappingCells(ts[1..])
  }

  /** The cells of the general skills table: the twelve attributes in display order. */
  function AttributeCells(items: seq<AttributesIter.NamedAttribute>): (r: seq<Cell>)
    ensures |r| == |items| && forall i :: 0 <= i < |items| ==> r[i] == Cell(items[i].name, NatToString(items[i].level))
  {
    if items == [] then [] else [Cell(items[0].name, NatToString(items[0].level))] + AttributeCells(items[1..])
  }

  /** Cells whose lower row is a number have a positive width as soon as there is one. */
  lemma NumberRowWidth(cells: seq<Cell>)
    requires forall i :: 0 <= i < |cells| ==> |cells[i].bottom| >= 1
    ensures Width(cells) >= 1 <==> cells != []
  {
    if cells != [] {
      assert cells[0] in cells;
    }
  }

  /**
   * The four tables of a character have a positive width exactly when
   * their lists are non-empty; the general skills table always has its
   * twelve attributes.
   */
  lemma NumberTables(c: Character)
    ensures Width(TalentCells(c.talents)) >= 1 <==> c.talents != []
    ensures Width(SkillCells(c.skills)) >= 1 <==> c.skills != []
    ensures Width(TrappingCells(c.trappings)) >= 1 <==> c.trappings != []
    ensures Width(AttributeCells(AttributesIter.Collect(AttributesIter.New(c)))) >= 1
  {
    NumberRowWidth(TalentCells(c.talents));
    NumberRowWidth(SkillCells(c.skills));
    NumberRowWidth(TrappingCells(c.trappings));
    NumberRowWidth(AttributeCells(AttributesIter.Collect(AttributesIter.New(c))));
  }

  /**
   * The four tables under their headers, in a fixed order: talents,
   * skills, trappings, general skills, each header followed by an empty
   * line and each table but the last by one more newline.
   */
  function Sections(talents: string, skills: string, trappings: string, general: string): (r: string)
    ensures var head := TalentsHeader + "\n\n" + talents;
      var next := "\n" + SkillsHeader + "\n\n" + skills;
      var middle := "\n" + TrappingsHeader + "\n\n" + trappings + "\n";
      var tail := GeneralSkillsHeader + "\n\n" + general;
      |r| == |head| + |next| + |middle| + |tail| &&
      r[..|head|] == head && r[|head|..|head| + |next|] == next &&
      r[|head| + |next|..|r| - |tail|] == middle && r[|r| - |tail|..] == tail
  {
    var head := TalentsHeader + "\n\n" + talents;
    var next := "\n" + SkillsHeader + "\n\n" + skills;
    var middle := "\n" + TrappingsHeader + "\n\n" + trappings + "\n";
    var tail := GeneralSkillsHeader + "\n\n" + general;
    assert head + next + middle + tail ==
      TalentsHeader + "\n\n" + talents + "\n" + SkillsHeader + "\n\n" + skills + "\n"
      + TrappingsHeader + "\n\n" + trappings + "\n" + GeneralSkillsHeader + "\n\n" + general;
    head + next + middle + tail
  }

  /** Every prefix of the four tables is fourteen characters long. */
  lemma PrefixLengths()
    ensures PrefixLen(TalentName, TalentLevel) == 14 && PrefixLen(SkillName, SkillValue) == 14
    ensures PrefixLen(TrappingName, TrappingCount) == 14 && PrefixLen(GeneralSkillName, GeneralSkillValue) == 14
  {
  }

  /** The text of `print` once its four tables are laid out; `None` if one of them is missing. */
  function Layout(talents: Option<string>, skills: Option<string>, trappings: Option<string>, general: Option<string>)
    : Option<string>
  {
    if talents.Some? && skills.Some? && trappings.Some? && general.Some? then
      Some(Sections(talents.value, skills.value, trappings.value, general.value))
    else None
  }

  /**
   * `print`, with the source's count of cells per line: the four tables
   * under their headers. `None` exactly when one of talents, skills or
   * trappings is empty, where the source panics.
   */
  function Print(c: Character): (r: Option<string>)
    ensures r.Some? <==> c.talents != [] && c.skills != [] && c.trappings != []
  {
    PrefixLengths();
    NumberTables(c);
    Layout(CreateTableAsWritten(TalentName, TalentLevel, TalentCells(c.talents)),
           CreateTableAsWritten(SkillName, SkillValue, SkillCells(c.skills)),
           CreateTableAsWritten(TrappingName, TrappingCount, TrappingCells(c.trappings)),
           CreateTableAsWritten(GeneralSkillName, GeneralSkillValue, AttributeCells(AttributesIter.Collect(AttributesIter.New(c)))))
  }

  /** `print` with the corrected count of cells per line (see `TableFitsConsole`). */
  function PrintCorrected(c: Character): (r: Option<string>)
    ensures r.Some? <==> c.talents != [] && c.skills != [] && c.trappings != []
  {
    PrefixLengths();
    NumberTables(c);
    Layout(CreateTable(TalentName, TalentLevel, TalentCells(c.talents)),
           CreateTable(SkillName, SkillValue, SkillCells(c.skills)),
           CreateTable(TrappingName, TrappingCount, TrappingCells(c.trappings)),
           CreateTable(GeneralSkillName, GeneralSkillValue, AttributeCells(AttributesIter.Collect(AttributesIter.New(c)))))
  }

  /** The text of `Print` is the four tables laid out by `Sections`. */
  lemma PrintSections(c: Character)
    requires Print(c).Some?
    ensures Print(c).value == Sections(
      CreateTableAsWritten(TalentName, TalentLevel, TalentCells(c.talents)).value,
      CreateTableAsWritten(SkillName, SkillValue, SkillCells(c.skills)).value,
      CreateTableAsWritten(TrappingName, TrappingCount, TrappingCells(c.trappings)).value,
      CreateTableAsWritten(GeneralSkillName, GeneralSkillValue, AttributeCells(AttributesIter.Collect(AttributesIter.New(c)))).value)
  {
  }

  /** The text of `PrintCorrected` is the four tables, with the corrected count, laid out by `Sections`. */
  lemma PrintCorrectedSections(c: Character)
    requires PrintCorrected(c).Some?
    ensures PrintCorrected(c).value == Sections(
      CreateTable(TalentName, TalentLevel, TalentCells(c.talents)).value,
      CreateTable(SkillName, SkillValue, SkillCells(c.skills)).value,
      CreateTable(TrappingName, TrappingCount, TrappingCells(c.trappings)).value,
      CreateTable(GeneralSkillName, GeneralSkillValue, AttributeCells(AttributesIter.Collect(AttributesIter.New(c)))).value)
  {
  }

  /**
   * The generator leaves the skill list empty, so no character it produces
   * can be printed: the skills table has no column.
   */
  lemma GeneratedCharacterNotPrintable(s: Species, ps: seq<Profession>, rolls: seq<nat>)
    requires Generator.LevelsFit(ps)
    requires Generator.GenerateCharacter(s, ps, rolls).Ok?
    ensures Print(Generator.GenerateCharacter(s, ps, rolls).value.value) == None
  {
  }

  lemma RecordExample()
    ensures CreateTableRecord(NatToString(1), 2) == "1 |"
  {
  }

  lemma UnlinesTwo(a: string, b: string)
    ensures Unlines([a, b]) == a + "\n" + b + "\n"
  {
    assert [a, b][1..] == [b];
    assert Unlines([b]) == b + "\n";
    assert a + "\n" + (b + "\n") == a + "\n" + b + "\n";
  }

  lemma TalentTableLinesExample(ts: seq<Talent>)
    requires ts == [Talent("Tal", 1, Fixed(3), "Desc")]
    ensures CreateTableLinesAsWritten(TalentName, TalentLevel, TalentCells(ts)) ==
      Some([TalentName + [TableDelimiter] + "Tal|", TalentLevel + [TableDelimiter] + "1  |"])
    ensures CreateTableLines(TalentName, TalentLevel, TalentCells(ts)) ==
      Some([TalentName + [TableDelimiter] + "Tal|", TalentLevel + [TableDelimiter] + "1  |"])
  {
    var cells := TalentCells(ts);
    assert cells == [Cell("Tal", "1")];
    assert Width(cells) == 3;
    assert PrefixLen(TalentName, TalentLevel) == 14;
    assert ElemCountAsWritten(14, 3) == 15;
    assert ElemCount(14, 3) == 11;
    assert Chunks(cells, 15) == [cells];
    assert Chunks(cells, 11) == [cells];
    assert Tops(cells) == ["Tal"] && Bottoms(cells) == ["1"];
    assert Records(["Tal"], 3) == "Tal|";
    assert Records(["1"], 3) == "1  |";
    assert LinesWith(TalentName, TalentLevel, cells, 15) == ChunkLines(TalentName, TalentLevel, cells, 3);
    assert LinesWith(TalentName, TalentLevel, cells, 11) == ChunkLines(TalentName, TalentLevel, cells, 3);
  }

  lemma TalentTableText(top: string, bottom: string)
    requires top == TalentName + [TableDelimiter] + "Tal|" && bottom == TalentLevel + [TableDelimiter] + "1  |"
    ensures top + "\n" + bottom + "\n" == "Talent        |Tal|\nLevels        |1  |\n"
  {
  }

  lemma TalentTableExample(ts: seq<Talent>)
    requires ts == [Talent("Tal", 1, Fixed(3), "Desc")]
    ensures CreateTableAsWritten(TalentName, TalentLevel, TalentCells(ts)) == Some("Talent        |Tal|\nLevels        |1  |\n")
    ensures CreateTable(TalentName, TalentLevel, TalentCells(ts)) == Some("Talent        |Tal|\nLevels        |1  |\n")
  {
    TalentTableLinesExample(ts);
    var top, bottom := TalentName + [TableDelimiter] + "Tal|", TalentLevel + [TableDelimiter] + "1  |";
    UnlinesTwo(top, bottom);
    TalentTableText(top, bottom);
  }
}

=== FILE: generator.dfy ===
/**
 * The generation engine (`NonPlayableCharacterGenerator::generate`): a fold
 * that starts from a species baseline and applies each profession layer in
 * order, reading every random draw from an explicit roll stream.
 */
module Generator {
  import opened Wrappers
  import opened Models
  import opened Dice
  import opened CharacterAttributes
  import opened Talents
  import opened Sampling

  /** The mutable state of one generation call: ten characteristics, talents and trappings so far. */
  datatype Staging = Staging(attributes: seq<CharacterAttribute>, talents: seq<Talent>, trappings: seq<Trapping>)

  /** `5 * profession_level` must fit the source's `u8`. */
  ghost predicate LevelsFit(ps: seq<Profession>) {
    forall i :: 0 <= i < |ps| ==> ps[i].professionLevel <= 51
  }

  /** Every attribute a profession lists is one of the ten characteristics. */
  ghost predicate ListsOnlyCharacteristics(p: Profession) {
    forall j :: 0 <= j < |p.attributes| ==> p.attributes[j] != Wounds && p.attributes[j] != Movement
  }

  /** The advancement floor profession `p` proposes for characteristic `id` (0 when it does not list it). */
  function Floor(p: Profession, id: BaseAttribute): nat {
    if id in p.attributes then 5 * p.professionLevel else 0
  }

  /** Reference for the ratchet over all layers: the largest floor any layer proposes. */
  function MaxFloor(ps: seq<Profession>, id: BaseAttribute): nat {
    if ps == [] then 0 else Max(Floor(ps[0], id), MaxFloor(ps[1..], id))
  }

  /** Every layer's trappings, in layer order. */
  function AllTrappings(ps: seq<Profession>): seq<Trapping> {
    if ps == [] then [] else ps[0].trappings + AllTrappings(ps[1..])
  }

  /** The dice of all expressions together: how many rolls rolling them all consumes. */
  function DiceCount(bases: seq<GenerationBase>): nat {
    if bases == [] then 0 else |bases[0].dices| + DiceCount(bases[1..])
  }

  /** `rolls` are fair for every expression in turn, each reading on where the previous stopped. */
  ghost predicate FitsAll(bases: seq<GenerationBase>, rolls: seq<nat>)
    decreases |bases|
  {
    bases == [] || (FitsDice(bases[0].dices, rolls) && FitsAll(bases[1..], rolls[|bases[0].dices|..]))
  }

  /**
   * Roll one new attribute per dice expression, in order: the first reads
   * the first rolls, the rest read on from there.
   */
  function RollAttributes(bases: seq<GenerationBase>, ids: seq<BaseAttribute>, rolls: seq<nat>)
    : (r: Result<Drawn<seq<CharacterAttribute>>, GenError>)
    requires |bases| == |ids|
    ensures r.Ok? <==> DiceCount(bases) <= |rolls|
    ensures r.Err? ==> r.error == RollsExhausted
    ensures r.Ok? ==> |r.value.value| == |ids| && r.value.rest == rolls[DiceCount(bases)..]
    ensures r.Ok? ==> forall i :: 0 <= i < |ids| ==> r.value.value[i].id == ids[i] && r.value.value[i].advances == 0
    ensures r.Ok? && ids != [] ==>
      r.value.value[0].baseValue == bases[0].baseValue + Sum(rolls[..|bases[0].dices|]) &&
      r.value.value[1..] == RollAttributes(bases[1..], ids[1..], rolls[|bases[0].dices|..]).value.value
    decreases |ids|
  {
    if ids == [] then Ok(Drawn([], rolls))
    else
      var v :- Generate(bases[0], rolls);
      var more :- RollAttributes(bases[1..], ids[1..], v.rest);
      Ok(Drawn([New(ids[0], v.value)] + more.value, more.rest))
  }

  /**
   * With fair rolls every expression is rolled, each attribute within
   * `[base + number of dice, base + sum of faces]` of its own expression.
   */
  lemma {:induction false} RollAttributesBounds(bases: seq<GenerationBase>, ids: seq<BaseAttribute>, rolls: seq<nat>)
    requires |bases| == |ids| && FitsAll(bases, rolls)
    ensures RollAttributes(bases, ids, rolls).Ok?
    ensures forall i :: 0 <= i < |ids| ==>
      bases[i].baseValue + |bases[i].dices| <= RollAttributes(bases, ids, rolls).value.value[i].baseValue
                                             <= bases[i].baseValue + Sum(bases[i].dices)
    decreases |ids|
  {
    if ids != [] {
      GenerateBounds(bases[0], rolls);
      var rest := rolls[|bases[0].dices|..];
      RollAttributesBounds(bases[1..], ids[1..], rest);
      var r := RollAttributes(bases, ids, rolls).value.value;
      var more := RollAttributes(bases[1..], ids[1..], rest).value.value;
      forall i | 0 <= i < |ids|
        ensures bases[i].baseValue + |bases[i].dices| <= r[i].baseValue <= bases[i].baseValue + Sum(bases[i].dices)
      {
        if i > 0 {
          assert r[i] == more[i - 1];
          assert bases[i] == bases[1..][i - 1];
        }
      }
    }
  }

  /** The ten characteristics rolled from the species' dice, in characteristic order. */
  function RollCharacteristics(s: Species, rolls: seq<nat>): (r: Result<Drawn<seq<CharacterAttribute>>, GenError>)
    ensures r.Err? ==> r.error == RollsExhausted
    ensures r.Ok? ==> WellFormed(r.value.value) && SuffixOf(r.value.rest, rolls)
    ensures r.Ok? ==> forall i :: 0 <= i < |r.value.value| ==> r.value.value[i].advances == 0
  {
    RollAttributes(SpeciesBases(s), Characteristics, rolls)
  }

  /** Rolling the characteristics fails exactly when the stream is shorter than all their dice, and consumes exactly those rolls. */
  lemma RollCharacteristicsConsumes(s: Species, rolls: seq<nat>)
    ensures RollCharacteristics(s, rolls).Ok? <==> DiceCount(SpeciesBases(s)) <= |rolls|
    ensures RollCharacteristics(s, rolls).Ok? ==>
      RollCharacteristics(s, rolls).value.rest == rolls[DiceCount(SpeciesBases(s))..]
  {
  }

  /**
   * With fair rolls the characteristics are all rolled, each within the
   * range of the species' dice expression for it.
   */
  lemma RollCharacteristicsBounds(s: Species, rolls: seq<nat>)
    requires FitsAll(SpeciesBases(s), rolls)
    ensures RollCharacteristics(s, rolls).Ok?
    ensures forall i :: 0 <= i < |Characteristics| ==>
      SpeciesBases(s)[i].baseValue + |SpeciesBases(s)[i].dices| <= RollCharacteristics(s, rolls).value.value[i].baseValue
                                                              <= SpeciesBases(s)[i].baseValue + Sum(SpeciesBases(s)[i].dices)
  {
    RollAttributesBounds(SpeciesBases(s), Characteristics, rolls);
  }

  /**
   * The prototype pass of `generate` (the `CharacterPrototype` fold), whose
   * result is discarded: it only consumes rolls (ten characteristics and the
   * species talents) and can abort.
   */
  function PrototypePass(s: Species, rolls: seq<nat>): (r: Result<seq<nat>, GenError>)
    ensures r.Ok? ==> SuffixOf(r.value, rolls)
  {
    var attrs :- RollCharacteristics(s, rolls);
    var ts :- SpeciesTalents(s.possibleTalents, [], attrs.value, attrs.rest);
    Ok(ts.rest)
  }

  /**
   * The species part of the effective pass of `generate`: roll the ten
   * characteristics, resolve the species talents, take the species trappings
   * twice, and draw six distinct skill positions (which are then unused).
   */
  function SpeciesBaseline(s: Species, rolls: seq<nat>): (r: Result<Drawn<Staging>, GenError>)
    ensures r.Ok? ==> WellFormed(r.value.value.attributes) && SuffixOf(r.value.rest, rolls)
    ensures r.Ok? ==> forall i :: 0 <= i < |r.value.value.attributes| ==> r.value.value.attributes[i].advances == 0
    ensures r.Ok? ==> r.value.value.trappings == s.trappings + s.trappings
    ensures r.Ok? ==> |s.possibleSkills| >= 6
  {
    var attrs :- RollCharacteristics(s, rolls);
    var r := SpeciesStaging(s, attrs.value, attrs.rest);
    if r.Ok? then SuffixTransitive(r.value.rest, attrs.rest, rolls); r else r
  }

  /** The rest of the species part once the characteristics are rolled. */
  function SpeciesStaging(s: Species, attrs: seq<CharacterAttribute>, rolls: seq<nat>): (r: Result<Drawn<Staging>, GenError>)
    requires WellFormed(attrs)
    ensures r.Ok? ==> r.value.value.attributes == attrs && SuffixOf(r.value.rest, rolls)
    ensures r.Ok? ==> r.value.value.trappings == s.trappings + s.trappings
    ensures r.Ok? ==> |s.possibleSkills| >= 6
  {
    var ts :- SpeciesTalents(s.possibleTalents, [], attrs, rolls);
    var picked :- UniqueDiceValues(|s.possibleSkills|, 6, ts.rest);
    SuffixTransitive(picked.rest, ts.rest, rolls);
    Ok(Drawn(Staging(attrs, ts.value, s.trappings + s.trappings), picked.rest))
  }

  /** The discarded first pass followed by the species baseline. */
  function Baseline(s: Species, rolls: seq<nat>): (r: Result<Drawn<Staging>, GenError>)
    ensures r.Ok? ==> WellFormed(r.value.value.attributes) && SuffixOf(r.value.rest, rolls)
    ensures r.Ok? ==> forall i :: 0 <= i < |r.value.value.attributes| ==> r.value.value.attributes[i].advances == 0
    ensures r.Ok? ==> r.value.value.trappings == s.trappings + s.trappings
    ensures r.Ok? ==> |s.possibleSkills| >= 6
  {
    match PrototypePass(s, rolls)
    case Err(e) => Err(e)
    case Ok(rest) =>
      var r := SpeciesBaseline(s, rest);
      if r.Ok? then SuffixTransitive(r.value.rest, rest, rolls); r else r
  }

  /** `advance(floor)` on the characteristic named by each id in turn; an id outside the ten aborts. */
  function AdvanceAll(attrs: seq<CharacterAttribute>, ids: seq<BaseAttribute>, floor: nat)
    : (r: Result<seq<CharacterAttribute>, GenError>)
    requires WellFormed(attrs)
    ensures r.Ok? <==> forall j :: 0 <= j < |ids| ==> ids[j] != Wounds && ids[j] != Movement
    ensures r.Err? ==> r.error == InvalidAttributeReference
    ensures r.Ok? ==> WellFormed(r.value)
    ensures r.Ok? ==> forall i :: 0 <= i < |attrs| ==>
      r.value[i].baseValue == attrs[i].baseValue &&
      r.value[i].advances == (if attrs[i].id in ids then Max(attrs[i].advances, floor) else attrs[i].advances)
    decreases |ids|
  {
    if ids == [] then Ok(attrs)
    else
      FindAttributeIsSlot(attrs, ids[0]);
      match FindAttribute(attrs, ids[0])
      case None => Err(InvalidAttributeReference)
      case Some(j) => AdvanceAll(attrs[j := Advance(attrs[j], floor)], ids[1..], floor)
  }

  /**
   * One profession layer (one turn of the loop over the professions): raise
   * the listed characteristics to `5 * level`, append the layer's trappings,
   * then merge its talents.
   */
  function ApplyProfession(st: Staging, p: Profession, rolls: seq<nat>): (r: Result<Drawn<Staging>, GenError>)
    requires WellFormed(st.attributes) && p.professionLevel <= 51
    ensures r.Ok? ==> WellFormed(r.value.value.attributes) && SuffixOf(r.value.rest, rolls)
    ensures !ListsOnlyCharacteristics(p) ==> r == Err(InvalidAttributeReference)
    ensures r.Ok? ==> r.value.value.trappings == st.trappings + p.trappings
    ensures r.Ok? ==> KeepsEntries(st.talents, r.value.value.talents)
  {
    var attrs :- AdvanceAll(st.attributes, p.attributes, 5 * p.professionLevel);
    var ts :- ProfessionTalents(p.talents, st.talents, rolls);
    Ok(Drawn(Staging(attrs, ts.value, st.trappings + p.trappings), ts.rest))
  }

  /** One layer raises each characteristic to the floor it proposes, keeping base values. */
  lemma ProfessionAdvances(st: Staging, p: Profession, rolls: seq<nat>)
    requires WellFormed(st.attributes) && p.professionLevel <= 51
    requires ApplyProfession(st, p, rolls).Ok?
    ensures var fin := ApplyProfession(st, p, rolls).value.value.attributes;
      forall i :: 0 <= i < |st.attributes| ==>
        fin[i].baseValue == st.attributes[i].baseValue &&
        fin[i].advances == Max(st.attributes[i].advances, Floor(p, Characteristics[i]))
  {
  }

  lemma AllTrappingsCons(front: seq<Trapping>, ps: seq<Profession>)
    requires ps != []
    ensures front + ps[0].trappings + AllTrappings(ps[1..]) == front + AllTrappings(ps)
  {
  }

  /** All profession layers, earliest first. */
  function ApplyProfessions(st: Staging, ps: seq<Profession>, rolls: seq<nat>): (r: Result<Drawn<Staging>, GenError>)
    requires WellFormed(st.attributes) && LevelsFit(ps)
    ensures r.Ok? ==> WellFormed(r.value.value.attributes) && SuffixOf(r.value.rest, rolls)
    ensures r.Ok? ==> r.value.value.trappings == st.trappings + AllTrappings(ps)
    ensures r.Ok? ==> KeepsEntries(st.talents, r.value.value.talents)
    decreases |ps|
  {
    if ps == [] then Ok(Drawn(st, rolls))
    else
      match ApplyProfession(st, ps[0], rolls)
      case Err(e) => Err(e)
      case Ok(one) =>
        match ApplyProfessions(one.value, ps[1..], one.rest)
        case Err(e) => Err(e)
        case Ok(all) =>
          SuffixTransitive(all.rest, one.rest, rolls);
          KeepsEntriesTransitive(st.talents, one.value.talents, all.value.talents);
          AllTrappingsCons(st.trappings, ps);
          Ok(all)
  }

  /** The finished `Character` that `generate` returns: values of the ten, derived wounds, species movement. */
  function Assemble(st: Staging, movement: nat): (c: Character)
    requires WellFormed(st.attributes)
    ensures c.talents == st.talents && c.trappings == st.trappings && c.skills == []
    ensures c.movement == movement
    ensures c.wounds == c.strength / 10 + 2 * (c.toughness / 10) + c.willpower / 10
  {
    var a := st.attributes;
    Character(
      st.talents, [], st.trappings,
      Value(a[0]), Value(a[1]), Value(a[2]), Value(a[3]), Value(a[4]),
      Value(a[5]), Value(a[6]), Value(a[7]), Value(a[8]), Value(a[9]),
      Bonus(a[2]) + 2 * Bonus(a[3]) + Bonus(a[8]),
      movement)
  }

  /** Each of the ten characteristics of the assembled character is the value of its slot. */
  lemma AssembleValues(st: Staging, movement: nat)
    requires WellFormed(st.attributes)
    ensures forall i :: 0 <= i < |Characteristics| ==>
      CharacteristicValue(Assemble(st, movement), i) == Value(st.attributes[i])
  {
  }

  /** Generate one character from a species and an ordered career history. */
  function GenerateCharacter(s: Species, ps: seq<Profession>, rolls: seq<nat>): (r: Result<Drawn<Character>, GenError>)
    requires LevelsFit(ps)
    ensures r.Ok? ==> SuffixOf(r.value.rest, rolls)
    ensures r.Ok? ==> r.value.value.movement == s.movement && r.value.value.skills == []
    ensures r.Ok? ==> r.value.value.trappings == s.trappings + s.trappings + AllTrappings(ps)
    ensures r.Ok? ==> (r.value.value.wounds ==
      r.value.value.strength / 10 + 2 * (r.value.value.toughness / 10) + r.value.value.willpower / 10)
    ensures r.Ok? ==> |s.possibleSkills| >= 6
  {
    match Baseline(s, rolls)
    case Err(e) => Err(e)
    case Ok(base) =>
      match ApplyProfessions(base.value, ps, base.rest)
      case Err(e) => Err(e)
      case Ok(fin) =>
        SuffixTransitive(fin.rest, base.rest, rolls);
        Ok(Drawn(Assemble(fin.value, s.movement), fin.rest))
  }

  /** A successful fold over `ps` is a successful first layer followed by a successful fold over the rest. */
  lemma ApplyProfessionsCons(st: Staging, ps: seq<Profession>, rolls: seq<nat>)
    requires WellFormed(st.attributes) && LevelsFit(ps) && ps != []
    requires ApplyProfessions(st, ps, rolls).Ok?
    ensures ApplyProfession(st, ps[0], rolls).Ok?
    ensures var one := ApplyProfession(st, ps[0], rolls).value;
      LevelsFit(ps[1..]) && ApplyProfessions(one.value, ps[1..], one.rest).Ok?
  {
  }

  /** A successful fold means no layer named Wounds or Movement: listing either aborts. */
  lemma {:induction false} ProfessionsListOnlyCharacteristics(st: Staging, ps: seq<Profession>, rolls: seq<nat>)
    requires WellFormed(st.attributes) && LevelsFit(ps)
    requires ApplyProfessions(st, ps, rolls).Ok?
    ensures forall k :: 0 <= k < |ps| ==> ListsOnlyCharacteristics(ps[k])
    decreases |ps|
  {
    if ps != [] {
      ApplyProfessionsCons(st, ps, rolls);
      var one := ApplyProfession(st, ps[0], rolls).value;
      ProfessionsListOnlyCharacteristics(one.value, ps[1..], one.rest);
      forall k | 0 <= k < |ps| ensures ListsOnlyCharacteristics(ps[k]) {
        if k > 0 {
          assert ps[k] == ps[1..][k - 1];
        }
      }
    }
  }

  /**
   * The layers compose as a ratchet: each characteristic ends with the larger
   * of its starting advances and the largest floor any layer proposed for it,
   * and its base value is untouched.
   */
  lemma {:induction false} ProfessionsAdvanceToMaxFloor(st: Staging, ps: seq<Profession>, rolls: seq<nat>)
    requires WellFormed(st.attributes) && LevelsFit(ps)
    requires ApplyProfessions(st, ps, rolls).Ok?
    ensures var fin := ApplyProfessions(st, ps, rolls).value.value.attributes;
      forall i :: 0 <= i < |st.attributes| ==>
        fin[i].baseValue == st.attributes[i].baseValue &&
        fin[i].advances == Max(st.attributes[i].advances, MaxFloor(ps, Characteristics[i]))
    decreases |ps|
  {
    if ps != [] {
      ApplyProfessionsCons(st, ps, rolls);
      var one := ApplyProfession(st, ps[0], rolls).value;
      ProfessionAdvances(st, ps[0], rolls);
      ProfessionsAdvanceToMaxFloor(one.value, ps[1..], one.rest);
    }
  }

  /** Generation fails whenever some layer names Wounds or Movement among its attributes. */
  lemma GenerateRejectsDerivedAttributes(s: Species, ps: seq<Profession>, rolls: seq<nat>)
    requires LevelsFit(ps)
    requires exists k :: 0 <= k < |ps| && !ListsOnlyCharacteristics(ps[k])
    ensures GenerateCharacter(s, ps, rolls).Err?
  {
    var r := GenerateCharacter(s, ps, rolls);
    if r.Ok? {
      var base := Baseline(s, rolls).value;
      ProfessionsListOnlyCharacteristics(base.value, ps, base.rest);
    }
  }

  /** From a staging state with no advances, each assembled characteristic is base plus the largest floor. */
  lemma AssembledCharacteristics(st: Staging, ps: seq<Profession>, rolls: seq<nat>, movement: nat)
    requires WellFormed(st.attributes) && LevelsFit(ps) && ApplyProfessions(st, ps, rolls).Ok?
    requires forall i :: 0 <= i < |st.attributes| ==> st.attributes[i].advances == 0
    ensures var c := Assemble(ApplyProfessions(st, ps, rolls).value.value, movement);
      forall i :: 0 <= i < |Characteristics| ==>
        CharacteristicValue(c, i) == st.attributes[i].baseValue + MaxFloor(ps, Characteristics[i])
  {
    ProfessionsAdvanceToMaxFloor(st, ps, rolls);
    AssembleValues(ApplyProfessions(st, ps, rolls).value.value, movement);
  }

  /** A generated character is the assembly of the professions folded over the baseline. */
  lemma GenerateUnfolds(s: Species, ps: seq<Profession>, rolls: seq<nat>)
    requires LevelsFit(ps) && GenerateCharacter(s, ps, rolls).Ok?
    ensures Baseline(s, rolls).Ok?
    ensures ApplyProfessions(Baseline(s, rolls).value.value, ps, Baseline(s, rolls).value.rest).Ok?
    ensures GenerateCharacter(s, ps, rolls).value.value ==
      Assemble(ApplyProfessions(Baseline(s, rolls).value.value, ps, Baseline(s, rolls).value.rest).value.value, s.movement)
  {
  }

  /**
   * Each characteristic of a generated character is its rolled base (from the
   * effective pass) plus the largest floor any layer set for it; a
   * characteristic no layer lists keeps its rolled value.
   */
  lemma GenerateCharacteristics(s: Species, ps: seq<Profession>, rolls: seq<nat>)
    requires LevelsFit(ps) && GenerateCharacter(s, ps, rolls).Ok?
    ensures Baseline(s, rolls).Ok?
    ensures var c := GenerateCharacter(s, ps, rolls).value.value;
      var base := Baseline(s, rolls).value.value.attributes;
      forall i :: 0 <= i < |Characteristics| ==>
        CharacteristicValue(c, i) == base[i].baseValue + MaxFloor(ps, Characteristics[i])
  {
    GenerateUnfolds(s, ps, rolls);
    var base := Baseline(s, rolls).value;
    AssembledCharacteristics(base.value, ps, base.rest, s.movement);
  }

  /** `MaxFloor` is the largest floor: no layer proposes more, and one layer proposes exactly that much (or none lists it). */
  lemma {:induction false} MaxFloorIsLargest(ps: seq<Profession>, id: BaseAttribute)
    ensures forall k :: 0 <= k < |ps| ==> Floor(ps[k], id) <= MaxFloor(ps, id)
    ensures MaxFloor(ps, id) == 0 || exists k :: 0 <= k < |ps| && Floor(ps[k], id) == MaxFloor(ps, id)
    decreases |ps|
  {
    if ps != [] {
      MaxFloorIsLargest(ps[1..], id);
      forall k | 0 < k < |ps| ensures Floor(ps[k], id) <= MaxFloor(ps, id) {
        assert ps[k] == ps[1..][k - 1];
      }
      if MaxFloor(ps, id) != Floor(ps[0], id) && MaxFloor(ps, id) != 0 {
        var k :| 0 <= k < |ps[1..]| && Floor(ps[1..][k], id) == MaxFloor(ps[1..], id);
        assert ps[k + 1] == ps[1..][k];
      }
    }
  }

  /** Splitting the career history anywhere: the largest floor is the larger of the two parts'. */
  lemma {:induction false} MaxFloorAppend(a: seq<Profession>, b: seq<Profession>, id: BaseAttribute)
    ensures MaxFloor(a + b, id) == Max(MaxFloor(a, id), MaxFloor(b, id))
    decreases |a|
  {
    if a != [] {
      MaxFloorAppend(a[1..], b, id);
      assert (a + b)[1..] == a[1..] + b;
    } else {
      assert a + b == b;
    }
  }

  /** The order of the career history does not matter to the characteristics. */
  lemma MaxFloorSwap(a: seq<Profession>, b: seq<Profession>, id: BaseAttribute)
    ensures MaxFloor(a + b, id) == MaxFloor(b + a, id)
  {
    MaxFloorAppend(a, b, id);
    MaxFloorAppend(b, a, id);
  }

  /** A characteristic no layer lists gets no floor. */
  lemma {:induction false} MaxFloorUnlisted(ps: seq<Profession>, id: BaseAttribute)
    requires forall k :: 0 <= k < |ps| ==> id !in ps[k].attributes
    ensures MaxFloor(ps, id) == 0
    decreases |ps|
  {
    if ps != [] {
      assert id !in ps[0].attributes;
      assert forall k :: 0 <= k < |ps[1..]| ==> ps[1..][k] == ps[k + 1];
      MaxFloorUnlisted(ps[1..], id);
    }
  }

  /** Two layers at levels 1 and 2 listing weapon skill give it advances 10, in either order. */
  lemma TwoLayersExample(p1: Profession, p2: Profession)
    requires p1.professionLevel == 1 && p2.professionLevel == 2
    requires WeaponSkill in p1.attributes && WeaponSkill in p2.attributes
    ensures MaxFloor([p1, p2], WeaponSkill) == 10 && MaxFloor([p2, p1], WeaponSkill) == 10
  {
    assert [p1, p2][1..] == [p2] && [p2, p1][1..] == [p1];
    assert [p1][1..] == [] && [p2][1..] == [];
    assert MaxFloor([p1], WeaponSkill) == 5 && MaxFloor([p2], WeaponSkill) == 10;
  }

  /** Strength 30, toughness 40 and willpower 33 give 3 + 2 * 4 + 3 = 14 wounds. */
  lemma WoundsExample(st: Staging, movement: nat)
    requires WellFormed(st.attributes)
    requires Value(st.attributes[2]) == 30 && Value(st.attributes[3]) == 40 && Value(st.attributes[8]) == 33
    ensures Assemble(st, movement).wounds == 14
  {
    var c := Assemble(st, movement);
    assert CharacteristicValue(c, 2) == 30 && CharacteristicValue(c, 3) == 40 && CharacteristicValue(c, 8) == 33;
  }
}

=== FILE: models.dfy ===
/**
 * The record and enum types of the NPC generator (`src/models/`). They carry
 * no behaviour; Rust's `u32`/`u8` fields become `nat` and `&str` becomes `string`.
 */
module Models {

  /** The ten characteristics plus the two derived quantities, in declaration order. */
  datatype BaseAttribute =
    | WeaponSkill | BallisticSkill | Strength | Toughness | Initiative
    | Agility | Dexterity | Intelligence | Willpower | Fellowship
    | Wounds | Movement

  /** The ten advanceable characteristics, in the order the generator stores them. */
  const Characteristics: seq<BaseAttribute> :=
    [WeaponSkill, BallisticSkill, Strength, Toughness, Initiative,
     Agility, Dexterity, Intelligence, Willpower, Fellowship]

  /** "N + kDm": a fixed amount plus one roll per listed die. */
  datatype GenerationBase = GenerationBase(baseValue: nat, dices: seq<nat>)

  /** How high a talent's level may be raised by repeated occurrences. */
  datatype MaxTalentLevel =
    | Fixed(fixedMaxLevel: nat)
    | AttributeDependent(attributeDeterminingLevel: BaseAttribute)
    | SkillDependent(skillDeterminingLevel: string)

  datatype SingularTalentDefinition =
    SingularTalentDefinition(name: string, maxLevel: MaxTalentLevel, description: string)

  /** A fixed talent, or a pool from which one talent is drawn at random. */
  datatype TalentDefinition =
    | Singular(talent: SingularTalentDefinition)
    | Random(possibleTalents: seq<SingularTalentDefinition>)

  /** A concrete talent; equality is structural over all four fields, `level` included. */
  datatype Talent = Talent(name: string, level: nat, maxLevel: MaxTalentLevel, description: string)

  datatype Trapping = Trapping(name: string, count: nat)

  datatype Skill = Skill(name: string, value: nat, baseAttribute: BaseAttribute)

  datatype SkillDefinition = SkillDefinition(name: string, baseAttribute: BaseAttribute)

  datatype Species = Species(
    name: string,
    weaponSkill: GenerationBase,
    ballisticSkill: GenerationBase,
    strength: GenerationBase,
    toughness: GenerationBase,
    initiative: GenerationBase,
    agility: GenerationBase,
    dexterity: GenerationBase,
    intelligence: GenerationBase,
    willpower: GenerationBase,
    fellowship: GenerationBase,
    movement: nat,
    trappings: seq<Trapping>,
    possibleTalents: seq<TalentDefinition>,
    possibleSkills: seq<Skill>)

  /** One career layer. `professionLevel` is a `u8` in the source. */
  datatype Profession = Profession(
    trappings: seq<Trapping>,
    skills: seq<SkillDefinition>,
    talents: seq<TalentDefinition>,
    professionLevel: nat,
    attributes: seq<BaseAttribute>,
    name: string)

  datatype Character = Character(
    talents: seq<Talent>,
    skills: seq<Skill>,
    trappings: seq<Trapping>,
    weaponSkill: nat,
    ballisticSkill: nat,
    strength: nat,
    toughness: nat,
    initiative: nat,
    agility: nat,
    dexterity: nat,
    intelligence: nat,
    willpower: nat,
    fellowship: nat,
    wounds: nat,
    movement: nat)

  /** The species' dice expressions for the ten characteristics, in `Characteristics` order. */
  function SpeciesBases(s: Species): (r: seq<GenerationBase>)
    ensures |r| == |Characteristics|
  {
    [s.weaponSkill, s.ballisticSkill, s.strength, s.toughness, s.initiative,
     s.agility, s.dexterity, s.intelligence, s.willpower, s.fellowship]
  }

  /** The resolved value of the i-th characteristic of a character, in `Characteristics` order. */
  function CharacteristicValue(c: Character, i: nat): nat
    requires i < |Characteristics|
  {
    [c.weaponSkill, c.ballisticSkill, c.strength, c.toughness, c.initiative,
     c.agility, c.dexterity, c.intelligence, c.willpower, c.fellowship][i]
  }
}

=== FILE: sampling.dfy ===
/**
 * `unique_dice_values`: drawing `k` distinct values by rolling one die of
 * `dice` faces again and again and discarding repeats.
 */
module Sampling {
  import opened Wrappers
  import opened Models
  import opened Dice

  ghost predicate Distinct(s: seq<nat>) {
    forall i, j :: 0 <= i < j < |s| ==> s[i] != s[j]
  }

  /** Every roll is a face of a `dice`-faced die. */
  ghost predicate FairRolls(dice: nat, rolls: seq<nat>) {
    forall i :: 0 <= i < |rolls| ==> 1 <= rolls[i] <= dice
  }

  /**
   * Reference definition: the values of `s` not in `seen`, each at its first
   * occurrence, in order.
   */
  function Fresh(s: seq<nat>, seen: seq<nat>): seq<nat>
  {
    if s == [] then []
    else if s[0] in seen then Fresh(s[1..], seen)
    else [s[0]] + Fresh(s[1..], seen + [s[0]])
  }

  /** The die the generator rolls for each draw. */
  function Die(dice: nat): GenerationBase {
    GenerationBase(0, [dice])
  }

  /**
   * Keep rolling until `acc` holds `k` values, skipping rolls already held.
   * Stops with `RollsExhausted` only when the scripted stream runs dry.
   */
  function CollectDistinct(dice: nat, k: nat, acc: seq<nat>, rolls: seq<nat>)
    : (r: Result<Drawn<seq<nat>>, GenError>)
    requires |acc| <= k && Distinct(acc)
    ensures r.Ok? ==> |r.value.value| == k && Distinct(r.value.value)
    ensures r.Ok? ==> r.value.value[..|acc|] == acc
    ensures r.Ok? ==> SuffixOf(r.value.rest, rolls)
    ensures r.Ok? ==> forall i :: |acc| <= i < k ==> r.value.value[i] in rolls
    ensures r.Err? ==> r.error == RollsExhausted
    decreases |rolls|
  {
    if |acc| == k then Ok(Drawn(acc, rolls))
    else
      SingleDie(dice, rolls);
      var d :- Generate(Die(dice), rolls);
      if d.value in acc then CollectDistinct(dice, k, acc, d.rest)
      else CollectDistinct(dice, k, acc + [d.value], d.rest)
  }

  /** `k` distinct rolls of a `dice`-faced die; asking for more values than faces aborts. */
  function UniqueDiceValues(dice: nat, k: nat, rolls: seq<nat>): (r: Result<Drawn<seq<nat>>, GenError>)
    ensures k > dice ==> r == Err(SampleDomainTooSmall)
    ensures r.Ok? ==> |r.value.value| == k && Distinct(r.value.value)
    ensures r.Ok? ==> SuffixOf(r.value.rest, rolls)
    ensures r.Ok? && FairRolls(dice, rolls) ==> forall i :: 0 <= i < k ==> 1 <= r.value.value[i] <= dice
    ensures r.Err? ==> (r.error == SampleDomainTooSmall <==> k > dice)
  {
    if k > dice then Err(SampleDomainTooSmall)
    else CollectDistinct(dice, k, [], rolls)
  }

  /**
   * The source's two nested loops: one draw per wanted value, re-drawing while
   * the value is already in the output.
   */
  method UniqueDiceValuesLoop(dice: nat, k: nat, rolls: seq<nat>) returns (r: Result<Drawn<seq<nat>>, GenError>)
    ensures r == UniqueDiceValues(dice, k, rolls)
  {
    if k > dice {
      return Err(SampleDomainTooSmall);
    }
    ghost var target := CollectDistinct(dice, k, [], rolls);
    var output: seq<nat> := [];
    var pos := 0;
    for i := 0 to k
      invariant |output| == i && Distinct(output)
      invariant pos <= |rolls|
      invariant CollectDistinct(dice, k, output, rolls[pos..]) == target
    {
      if pos == |rolls| {
        return Err(RollsExhausted);
      }
      var value := rolls[pos];
      pos := pos + 1;
      while value in output
        invariant 1 <= pos <= |rolls| && value == rolls[pos - 1]
        invariant CollectDistinct(dice, k, output, rolls[pos - 1..]) == target
        decreases |rolls| - pos
      {
        SingleDie(dice, rolls[pos - 1..]);
        assert rolls[pos - 1..][1..] == rolls[pos..];
        if pos == |rolls| {
          return Err(RollsExhausted);
        }
        value := rolls[pos];
        pos := pos + 1;
      }
      SingleDie(dice, rolls[pos - 1..]);
      assert rolls[pos - 1..][1..] == rolls[pos..];
      output := output + [value];
    }
    return Ok(Drawn(output, rolls[pos..]));
  }

  lemma {:induction false} CollectIsFresh(dice: nat, k: nat, acc: seq<nat>, rolls: seq<nat>)
    requires |acc| <= k && Distinct(acc)
    ensures CollectDistinct(dice, k, acc, rolls).Ok? <==> |acc| + |Fresh(rolls, acc)| >= k
    ensures CollectDistinct(dice, k, acc, rolls).Ok? ==>
      CollectDistinct(dice, k, acc, rolls).value.value == (acc + Fresh(rolls, acc))[..k]
    decreases |rolls|
  {
    SingleDie(dice, rolls);
    if |acc| == k {
      assert (acc + Fresh(rolls, acc))[..k] == acc;
    } else if rolls != [] {
      var x := rolls[0];
      if x in acc {
        CollectIsFresh(dice, k, acc, rolls[1..]);
      } else {
        CollectIsFresh(dice, k, acc + [x], rolls[1..]);
        assert acc + Fresh(rolls, acc) == (acc + [x]) + Fresh(rolls[1..], acc + [x]);
      }
    }
  }

  /**
   * Against the reference: sampling succeeds exactly when the stream holds at
   * least `k` distinct values, and returns the first `k` of them in order.
   */
  lemma UniqueDiceValuesIsFirstDistinct(dice: nat, k: nat, rolls: seq<nat>)
    requires k <= dice
    ensures UniqueDiceValues(dice, k, rolls).Ok? <==> |Fresh(rolls, [])| >= k
    ensures UniqueDiceValues(dice, k, rolls).Ok? ==> UniqueDiceValues(dice, k, rolls).value.value == Fresh(rolls, [])[..k]
  {
    CollectIsFresh(dice, k, [], rolls);
    assert [] + Fresh(rolls, []) == Fresh(rolls, []);
  }

  /** The faces of an n-faced die, `{1, …, n}`. */
  function Faces(n: nat): (r: set<nat>)
    ensures forall x :: x in r <==> 1 <= x <= n
    ensures |r| == n
  {
    if n == 0 then {} else Faces(n - 1) + {n}
  }

  /** The values held by a sequence. */
  function Elems(s: seq<nat>): (r: set<nat>)
    ensures forall x :: x in r <==> x in s
  {
    set x | x in s
  }

  lemma {:induction false} DistinctCard(s: seq<nat>)
    requires Distinct(s)
    ensures |Elems(s)| == |s|
    decreases |s|
  {
    if s != [] {
      var t := s[1..];
      assert Distinct(t);
      DistinctCard(t);
      var rest := Elems(t);
      assert s[0] !in rest by {
        forall j | 0 <= j < |t| ensures t[j] != s[0] {
          assert t[j] == s[j + 1];
        }
      }
      assert Elems(s) == rest + {s[0]};
      assert |rest + {s[0]}| == |rest| + 1;
    }
  }

  lemma {:induction false} SubsetCard(a: set<nat>, b: set<nat>)
    requires a <= b
    ensures |a| <= |b|
    decreases b
  {
    if a != {} {
      var x :| x in a;
      SubsetCard(a - {x}, b - {x});
    }
  }

  lemma SubsetSameCard(a: set<nat>, b: set<nat>)
    requires a <= b && |a| == |b|
    ensures a == b
  {
    if a != b {
      var x :| x in b && x !in a;
      SubsetCard(a, b - {x});
    }
  }

  /**
   * With fair rolls, drawing as many values as the die has faces yields every
   * face exactly once (e.g. six distinct values covering 1..6 for a d6).
   */
  lemma FullSampleIsPermutation(n: nat, rolls: seq<nat>)
    requires FairRolls(n, rolls) && UniqueDiceValues(n, n, rolls).Ok?
    ensures Elems(UniqueDiceValues(n, n, rolls).value.value) == Faces(n)
  {
    var vs := UniqueDiceValues(n, n, rolls).value.value;
    DistinctCard(vs);
    SubsetSameCard(Elems(vs), Faces(n));
  }

  /** Three faces cannot give four distinct values. */
  lemma DomainTooSmallExample(rolls: seq<nat>)
    ensures UniqueDiceValues(3, 4, rolls) == Err(SampleDomainTooSmall)
  {
  }
}

=== FILE: talents.dfy ===
/**
 * Talent resolution: turning a definition into a concrete talent (drawing
 * from a pool when needed) and merging it into the talents gathered so far.
 * A candidate matches an existing entry only when ALL fields are equal,
 * `level` included, so only entries still at the candidate's level 1 match.
 */
module Talents {
  import opened Wrappers
  import opened Models
  import opened Dice
  import opened CharacterAttributes

  /** A singular definition as a talent at level 1. */
  function FromSingular(d: SingularTalentDefinition): (r: Talent)
    ensures r.level == 1
    ensures r.name == d.name && r.maxLevel == d.maxLevel && r.description == d.description
  {
    Talent(d.name, 1, d.maxLevel, d.description)
  }

  /**
   * Materialise a definition. A pool of k candidates asks the provider for one
   * die of k faces and takes candidate `roll - 1`; a roll outside `[1, k]`
   * (which includes every roll for an empty pool) indexes out of bounds.
   */
  function Materialize(def: TalentDefinition, rolls: seq<nat>): (r: Result<Drawn<Talent>, GenError>)
    ensures r.Ok? ==> r.value.value.level == 1
    ensures def.Singular? ==> r == Ok(Drawn(FromSingular(def.talent), rolls))
    ensures def.Random? ==>
      (r.Ok? <==> |rolls| >= 1 && 1 <= rolls[0] <= |def.possibleTalents|)
    ensures def.Random? && r.Ok? ==>
      r.value.value == FromSingular(def.possibleTalents[rolls[0] - 1]) && r.value.rest == rolls[1..]
    ensures def.Random? && r.Err? ==>
      (r.error == RollsExhausted <==> rolls == []) &&
      (r.error == TalentIndexOutOfRange <==> rolls != [])
  {
    match def
    case Singular(t) => Ok(Drawn(FromSingular(t), rolls))
    case Random(pool) =>
      SingleDie(|pool|, rolls);
      var d :- Generate(GenerationBase(0, [|pool|]), rolls);
      if 1 <= d.value <= |pool| then Ok(Drawn(FromSingular(pool[d.value - 1]), d.rest))
      else Err(TalentIndexOutOfRange)
  }

  /** A fair roll for a non-empty pool always selects a candidate. */
  lemma FairPoolRollInBounds(pool: seq<SingularTalentDefinition>, rolls: seq<nat>)
    requires |pool| >= 1 && FitsDice([|pool|], rolls)
    ensures Materialize(Random(pool), rolls).Ok?
    ensures Materialize(Random(pool), rolls).value.value in set d | d in pool :: FromSingular(d)
  {
    var d := pool[rolls[0] - 1];
    assert d in pool;
  }

  /** Position of the first entry equal to `t` at or after `from`. */
  function FindFrom(ts: seq<Talent>, t: Talent, from: nat): (r: Option<nat>)
    requires from <= |ts|
    ensures r.Some? ==> from <= r.value < |ts| && ts[r.value] == t && t !in ts[from..r.value]
    ensures r.None? <==> t !in ts[from..]
    decreases |ts| - from
  {
    if from == |ts| then None
    else if ts[from] == t then Some(from)
    else
      var r := FindFrom(ts, t, from + 1);
      assert ts[from..] == [ts[from]] + ts[from + 1..];
      if r.Some? then
        assert ts[from..r.value] == [ts[from]] + ts[from + 1..r.value];
        r
      else r
  }

  /** Position of the first entry structurally equal to `t` (`iter_mut().find(|x| **x == t)`). */
  function FindTalent(ts: seq<Talent>, t: Talent): (r: Option<nat>)
    ensures r.Some? ==> r.value < |ts| && ts[r.value] == t && t !in ts[..r.value]
    ensures r.None? <==> t !in ts
  {
    assert ts[0..] == ts;
    FindFrom(ts, t, 0)
  }

  /**
   * The cap for one more level: a fixed number, the current bonus of the named
   * characteristic, or 1 for skill-dependent talents. Naming Wounds or
   * Movement aborts.
   */
  function Cap(policy: MaxTalentLevel, attrs: seq<CharacterAttribute>): (r: Result<nat, GenError>)
    requires WellFormed(attrs)
    ensures policy.Fixed? ==> r == Ok(policy.fixedMaxLevel)
    ensures policy.SkillDependent? ==> r == Ok(1)
    ensures policy.AttributeDependent? ==>
      (r.Err? <==> policy.attributeDeterminingLevel == Wounds || policy.attributeDeterminingLevel == Movement)
    ensures r.Err? ==> r.error == ForbiddenTalentDependency
    ensures policy.AttributeDependent? && r.Ok? ==>
      forall i :: 0 <= i < |attrs| && attrs[i].id == policy.attributeDeterminingLevel ==>
        r.value == Bonus(attrs[i])
  {
    match policy
    case Fixed(n) => Ok(n)
    case AttributeDependent(a) =>
      (match Slot(a)
       case Some(i) => Ok(Bonus(attrs[i]))
       case None => Err(ForbiddenTalentDependency))
    case SkillDependent(_) => Ok(1)
  }

  /** `level + 1`, but never above `cap` (which may also pull the level down to `cap`). */
  function ClampedIncrement(level: nat, cap: nat): (r: nat)
    ensures r <= cap && r <= level + 1
    ensures r == cap || r == level + 1
  {
    if level + 1 > cap then cap else level + 1
  }

  /** Merge one species talent: raise the first equal entry with a clamp, or append. */
  function SpeciesMerge(ts: seq<Talent>, cand: Talent, attrs: seq<CharacterAttribute>)
    : (r: Result<seq<Talent>, GenError>)
    requires WellFormed(attrs)
    ensures cand !in ts ==> r == Ok(ts + [cand])
    ensures cand in ts ==> (r.Ok? <==> Cap(cand.maxLevel, attrs).Ok?)
    ensures r.Err? ==> r.error == ForbiddenTalentDependency
    ensures cand in ts && r.Ok? ==>
      var i := FindTalent(ts, cand).value;
      |r.value| == |ts| &&
      r.value[i] == cand.(level := ClampedIncrement(cand.level, Cap(cand.maxLevel, attrs).value)) &&
      forall j :: 0 <= j < |ts| && j != i ==> r.value[j] == ts[j]
  {
    match FindTalent(ts, cand)
    case None => Ok(ts + [cand])
    case Some(i) =>
      var cap :- Cap(ts[i].maxLevel, attrs);
      Ok(ts[i := ts[i].(level := ClampedIncrement(ts[i].level, cap))])
  }

  /** Merge one profession talent: raise the first equal entry by exactly one, uncapped, or append. */
  function ProfessionMerge(ts: seq<Talent>, cand: Talent): (r: seq<Talent>)
    ensures cand !in ts ==> r == ts + [cand]
    ensures cand in ts ==>
      var i := FindTalent(ts, cand).value;
      |r| == |ts| && r[i] == cand.(level := cand.level + 1) &&
      forall j :: 0 <= j < |ts| && j != i ==> r[j] == ts[j]
  {
    match FindTalent(ts, cand)
    case None => ts + [cand]
    case Some(i) => ts[i := ts[i].(level := ts[i].level + 1)]
  }

  /** Each entry of `ts` is still at its position in `r` with the same name, policy and description. */
  ghost predicate KeepsEntries(ts: seq<Talent>, r: seq<Talent>) {
    |ts| <= |r| &&
    forall i :: 0 <= i < |ts| ==>
      r[i].name == ts[i].name && r[i].maxLevel == ts[i].maxLevel && r[i].description == ts[i].description
  }

  lemma KeepsEntriesTransitive(a: seq<Talent>, b: seq<Talent>, c: seq<Talent>)
    requires KeepsEntries(a, b) && KeepsEntries(b, c)
    ensures KeepsEntries(a, c)
  {
  }

  /** Resolve the species' talent definitions in order into `ts`. */
  function SpeciesTalents(defs: seq<TalentDefinition>, ts: seq<Talent>, attrs: seq<CharacterAttribute>,
                          rolls: seq<nat>): (r: Result<Drawn<seq<Talent>>, GenError>)
    requires WellFormed(attrs)
    ensures r.Ok? ==> SuffixOf(r.value.rest, rolls)
    ensures r.Ok? ==> KeepsEntries(ts, r.value.value) && |r.value.value| <= |ts| + |defs|
    ensures r.Err? ==> r.error in {ForbiddenTalentDependency, TalentIndexOutOfRange, RollsExhausted}
    decreases |defs|
  {
    if defs == [] then Ok(Drawn(ts, rolls))
    else
      var cand :- Materialize(defs[0], rolls);
      var merged :- SpeciesMerge(ts, cand.value, attrs);
      SpeciesTalents(defs[1..], merged, attrs, cand.rest)
  }

  /** Resolve one profession layer's talent definitions in order into `ts`. */
  function ProfessionTalents(defs: seq<TalentDefinition>, ts: seq<Talent>, rolls: seq<nat>)
    : (r: Result<Drawn<seq<Talent>>, GenError>)
    ensures r.Ok? ==> SuffixOf(r.value.rest, rolls)
    ensures r.Ok? ==> KeepsEntries(ts, r.value.value) && |r.value.value| <= |ts| + |defs|
    ensures r.Ok? ==> forall i :: 0 <= i < |ts| ==> r.value.value[i].level >= ts[i].level
    ensures r.Err? ==> r.error in {TalentIndexOutOfRange, RollsExhausted}
    decreases |defs|
  {
    if defs == [] then Ok(Drawn(ts, rolls))
    else
      var cand :- Materialize(defs[0], rolls);
      ProfessionTalents(defs[1..], ProfessionMerge(ts, cand.value), cand.rest)
  }
  /** Merging a talent into a list holding only that same talent, as the first two merges of a repeated definition. */
  lemma SingletonMerges(t: Talent, attrs: seq<CharacterAttribute>)
    requires WellFormed(attrs)
    ensures SpeciesMerge([], t, attrs) == Ok([t])
    ensures ProfessionMerge([], t) == [t]
    ensures Cap(t.maxLevel, attrs).Ok? ==>
      SpeciesMerge([t], t, attrs) == Ok([t.(level := ClampedIncrement(t.level, Cap(t.maxLevel, attrs).value))])
    ensures Cap(t.maxLevel, attrs).Err? ==> SpeciesMerge([t], t, attrs) == Err(ForbiddenTalentDependency)
    ensures ProfessionMerge([t], t) == [t.(level := t.level + 1)]
  {
    assert [] + [t] == [t];
    assert t in [t];
    var p := ProfessionMerge([t], t);
    assert |p| == 1 && p[0] == t.(level := t.level + 1);
    assert p == [t.(level := t.level + 1)];
    if Cap(t.maxLevel, attrs).Ok? {
      var m := SpeciesMerge([t], t, attrs).value;
      assert |m| == 1;
      assert m == [m[0]];
    }
  }

  /** One step of the species fold over a singular definition. */
  lemma SpeciesSingularStep(d: SingularTalentDefinition, defs: seq<TalentDefinition>, ts: seq<Talent>,
                            attrs: seq<CharacterAttribute>, rolls: seq<nat>)
    requires WellFormed(attrs)
    ensures SpeciesMerge(ts, FromSingular(d), attrs).Ok? ==>
      SpeciesTalents([Singular(d)] + defs, ts, attrs, rolls) ==
      SpeciesTalents(defs, SpeciesMerge(ts, FromSingular(d), attrs).value, attrs, rolls)
    ensures SpeciesMerge(ts, FromSingular(d), attrs).Err? ==>
      SpeciesTalents([Singular(d)] + defs, ts, attrs, rolls) == Err(SpeciesMerge(ts, FromSingular(d), attrs).error)
  {
    assert ([Singular(d)] + defs)[1..] == defs;
  }

  /** One step of a profession's talent fold over a singular definition. */
  lemma ProfessionSingularStep(d: SingularTalentDefinition, defs: seq<TalentDefinition>, ts: seq<Talent>, rolls: seq<nat>)
    ensures ProfessionTalents([Singular(d)] + defs, ts, rolls) ==
            ProfessionTalents(defs, ProfessionMerge(ts, FromSingular(d)), rolls)
  {
    assert ([Singular(d)] + defs)[1..] == defs;
  }

  /**
   * One step of the species fold over a random pool: it draws exactly one
   * roll and merges the pool entry that roll selects, or aborts when the
   * stream is empty or the roll is outside the pool.
   */
  lemma SpeciesPoolStep(pool: seq<SingularTalentDefinition>, defs: seq<TalentDefinition>, ts: seq<Talent>,
                        attrs: seq<CharacterAttribute>, rolls: seq<nat>)
    requires WellFormed(attrs)
    ensures rolls == [] ==> SpeciesTalents([Random(pool)] + defs, ts, attrs, rolls) == Err(RollsExhausted)
    ensures rolls != [] && !(1 <= rolls[0] <= |pool|) ==>
      SpeciesTalents([Random(pool)] + defs, ts, attrs, rolls) == Err(TalentIndexOutOfRange)
    ensures rolls != [] && 1 <= rolls[0] <= |pool| ==>
      var t := FromSingular(pool[rolls[0] - 1]);
      SpeciesTalents([Random(pool)] + defs, ts, attrs, rolls) ==
        match SpeciesMerge(ts, t, attrs)
        case Ok(merged) => SpeciesTalents(defs, merged, attrs, rolls[1..])
        case Err(e) => Err(e)
  {
    assert ([Random(pool)] + defs)[1..] == defs;
  }

  /**
   * One step of a profession's talent fold over a random pool: it draws
   * exactly one roll and merges the selected entry, or aborts.
   */
  lemma ProfessionPoolStep(pool: seq<SingularTalentDefinition>, defs: seq<TalentDefinition>, ts: seq<Talent>,
                           rolls: seq<nat>)
    ensures rolls == [] ==> ProfessionTalents([Random(pool)] + defs, ts, rolls) == Err(RollsExhausted)
    ensures rolls != [] && !(1 <= rolls[0] <= |pool|) ==>
      ProfessionTalents([Random(pool)] + defs, ts, rolls) == Err(TalentIndexOutOfRange)
    ensures rolls != [] && 1 <= rolls[0] <= |pool| ==>
      ProfessionTalents([Random(pool)] + defs, ts, rolls) ==
      ProfessionTalents(defs, ProfessionMerge(ts, FromSingular(pool[rolls[0] - 1])), rolls[1..])
  {
    assert ([Random(pool)] + defs)[1..] == defs;
  }

  /** A species listing the same Fixed(3) talent twice ends with that talent once, at level 2. */
  lemma SpeciesDuplicateRaisesLevel(d: SingularTalentDefinition, attrs: seq<CharacterAttribute>, rolls: seq<nat>)
    requires WellFormed(attrs) && d.maxLevel == Fixed(3)
    ensures SpeciesTalents([Singular(d), Singular(d)], [], attrs, rolls)
         == Ok(Drawn([FromSingular(d).(level := 2)], rolls))
  {
    var t := FromSingular(d);
    SingletonMerges(t, attrs);
    SpeciesSingularStep(d, [Singular(d)], [], attrs, rolls);
    SpeciesSingularStep(d, [], [t], attrs, rolls);
    assert [Singular(d)] + [Singular(d)] == [Singular(d), Singular(d)];
  }

  /**
   * A third copy does not reach level 3: the entry at level 2 no longer equals
   * the level-1 candidate, so the copy is appended as a new entry.
   */
  lemma SpeciesThirdCopyAppended(d: SingularTalentDefinition, attrs: seq<CharacterAttribute>, rolls: seq<nat>)
    requires WellFormed(attrs) && d.maxLevel == Fixed(3)
    ensures SpeciesTalents([Singular(d), Singular(d), Singular(d)], [], attrs, rolls)
         == Ok(Drawn([FromSingular(d).(level := 2), FromSingular(d)], rolls))
  {
    var t := FromSingular(d);
    var t2 := t.(level := 2);
    SingletonMerges(t, attrs);
    assert SpeciesMerge([t], t, attrs) == Ok([t2]);
    assert t !in [t2];
    assert [t2] + [t] == [t2, t];
    assert SpeciesMerge([t2], t, attrs) == Ok([t2, t]);
    SpeciesSingularStep(d, [Singular(d), Singular(d)], [], attrs, rolls);
    SpeciesSingularStep(d, [Singular(d)], [t], attrs, rolls);
    SpeciesSingularStep(d, [], [t2], attrs, rolls);
    assert [Singular(d)] + [Singular(d)] == [Singular(d), Singular(d)];
    assert [Singular(d)] + [Singular(d), Singular(d)] == [Singular(d), Singular(d), Singular(d)];
  }

  /** A cap of 0 pulls a repeated species talent down from level 1 to level 0. */
  lemma SpeciesZeroCapLowersLevel(d: SingularTalentDefinition, attrs: seq<CharacterAttribute>, rolls: seq<nat>)
    requires WellFormed(attrs) && d.maxLevel == Fixed(0)
    ensures SpeciesTalents([Singular(d), Singular(d)], [], attrs, rolls)
         == Ok(Drawn([FromSingular(d).(level := 0)], rolls))
  {
    var t := FromSingular(d);
    SingletonMerges(t, attrs);
    SpeciesSingularStep(d, [Singular(d)], [], attrs, rolls);
    SpeciesSingularStep(d, [], [t], attrs, rolls);
    assert [Singular(d)] + [Singular(d)] == [Singular(d), Singular(d)];
  }

  /**
   * A talent capped by Wounds or Movement aborts the species fold as soon as it
   * repeats; listed once it is simply added.
   */
  lemma SpeciesForbiddenDependency(d: SingularTalentDefinition, attrs: seq<CharacterAttribute>, rolls: seq<nat>)
    requires WellFormed(attrs)
    requires d.maxLevel == AttributeDependent(Wounds) || d.maxLevel == AttributeDependent(Movement)
    ensures SpeciesTalents([Singular(d)], [], attrs, rolls) == Ok(Drawn([FromSingular(d)], rolls))
    ensures SpeciesTalents([Singular(d), Singular(d)], [], attrs, rolls) == Err(ForbiddenTalentDependency)
  {
    var t := FromSingular(d);
    SingletonMerges(t, attrs);
    assert [Singular(d), Singular(d)][1..] == [Singular(d)];
  }

  /** A repeated attribute-dependent talent reaches `min(2, bonus)` of the named characteristic. */
  lemma SpeciesAttributeCap(d: SingularTalentDefinition, attrs: seq<CharacterAttribute>, rolls: seq<nat>, i: nat)
    requires WellFormed(attrs) && i < |attrs| && d.maxLevel == AttributeDependent(Characteristics[i])
    ensures SpeciesTalents([Singular(d), Singular(d)], [], attrs, rolls)
         == Ok(Drawn([FromSingular(d).(level := if Bonus(attrs[i]) < 2 then Bonus(attrs[i]) else 2)], rolls))
  {
    var t := FromSingular(d);
    SingletonMerges(t, attrs);
    assert Cap(d.maxLevel, attrs) == Ok(Bonus(attrs[i]));
    SpeciesSingularStep(d, [Singular(d)], [], attrs, rolls);
    SpeciesSingularStep(d, [], [t], attrs, rolls);
    assert [Singular(d)] + [Singular(d)] == [Singular(d), Singular(d)];
  }

  /** Profession merges ignore the cap: a Fixed(1) talent listed twice reaches level 2. */
  lemma ProfessionDuplicateUncapped(d: SingularTalentDefinition, rolls: seq<nat>)
    requires d.maxLevel == Fixed(1)
    ensures ProfessionTalents([Singular(d), Singular(d)], [], rolls)
         == Ok(Drawn([FromSingular(d).(level := 2)], rolls))
  {
    var t := FromSingular(d);
    assert [] + [t] == [t];
    assert t in [t];
    var p := ProfessionMerge([t], t);
    assert |p| == 1 && p[0] == t.(level := 2);
    assert p == [t.(level := 2)];
    ProfessionSingularStep(d, [Singular(d)], [], rolls);
    ProfessionSingularStep(d, [], [t], rolls);
    assert [Singular(d)] + [Singular(d)] == [Singular(d), Singular(d)];
  }

  /** Talent definitions that are all singular draw nothing from the roll stream. */
  lemma {:induction false} SingularProfessionTalentsUseNoRolls(defs: seq<TalentDefinition>, ts: seq<Talent>, rolls: seq<nat>)
    requires forall i :: 0 <= i < |defs| ==> defs[i].Singular?
    ensures ProfessionTalents(defs, ts, rolls).Ok?
    ensures ProfessionTalents(defs, ts, rolls).value.rest == rolls
    decreases |defs|
  {
    if defs != [] {
      var cand := Materialize(defs[0], rolls).value;
      SingularProfessionTalentsUseNoRolls(defs[1..], ProfessionMerge(ts, cand.value), rolls);
    }
  }
}

=== FILE: thread_provider.dfy ===
/**
 * The thread-random provider (`ThreadBasedRandomProvider`): a base value plus
 * one roll per inclusive die range `[low, high]`. The thread generator is
 * replaced by the roll stream, as in `Dice`; `FitsRanges` says when the
 * stream is one the real generator could have produced.
 */
module ThreadProvider {
  import opened Wrappers
  import opened Models
  import Dice

  datatype DieRange = DieRange(low: nat, high: nat)

  datatype ThreadBasedRandomProvider = ThreadBasedRandomProvider(baseValue: nat, dices: seq<DieRange>)

  /**
   * An empty range makes the range sampler panic; `OutOfRolls` only says
   * the scripted stream was too short.
   */
  datatype ProviderError = EmptyRange | OutOfRolls

  ghost predicate FitsRanges(dices: seq<DieRange>, rolls: seq<nat>) {
    |dices| <= |rolls| && forall i :: 0 <= i < |dices| ==> dices[i].low <= rolls[i] <= dices[i].high
  }

  predicate NonEmptyRanges(dices: seq<DieRange>) {
    forall i :: 0 <= i < |dices| ==> dices[i].low <= dices[i].high
  }

  function Lows(dices: seq<DieRange>): nat {
    if dices == [] then 0 else dices[0].low + Lows(dices[1..])
  }

  function Highs(dices: seq<DieRange>): nat {
    if dices == [] then 0 else dices[0].high + Highs(dices[1..])
  }

  /** Rolls every die in order and adds the results up. */
  function RollAll(dices: seq<DieRange>, rolls: seq<nat>): (r: Result<Dice.Drawn<nat>, ProviderError>)
    ensures r.Ok? <==> NonEmptyRanges(dices) && |dices| <= |rolls|
    ensures r.Ok? ==> r.value.value == Dice.Sum(rolls[..|dices|]) && r.value.rest == rolls[|dices|..]
    ensures r.Err? && NonEmptyRanges(dices) ==> r.error == OutOfRolls
    ensures r.Err? && |dices| <= |rolls| ==> r.error == EmptyRange
  {
    if dices == [] then Ok(Dice.Drawn(0, rolls))
    else if dices[0].low > dices[0].high then Err(EmptyRange)
    else if rolls == [] then Err(OutOfRolls)
    else
      match RollAll(dices[1..], rolls[1..])
      case Err(e) => Err(e)
      case Ok(d) =>
        assert rolls[..|dices|] == [rolls[0]] + rolls[1..][..|dices| - 1];
        Ok(Dice.Drawn(rolls[0] + d.value, d.rest))
  }

  /** `generate`: the base value plus the dice; the provider passed as argument is ignored. */
  function Generate(p: ThreadBasedRandomProvider, ignored: ThreadBasedRandomProvider, rolls: seq<nat>)
    : (r: Result<Dice.Drawn<nat>, ProviderError>)
    ensures r.Ok? <==> NonEmptyRanges(p.dices) && |p.dices| <= |rolls|
    ensures r.Ok? ==> r.value.value == p.baseValue + Dice.Sum(rolls[..|p.dices|])
    ensures r.Ok? ==> r.value.rest == rolls[|p.dices|..]
    ensures r.Err? && NonEmptyRanges(p.dices) ==> r.error == OutOfRolls
    ensures r.Err? && |p.dices| <= |rolls| ==> r.error == EmptyRange
  {
    match RollAll(p.dices, rolls)
    case Err(e) => Err(e)
    case Ok(d) => Ok(Dice.Drawn(p.baseValue + d.value, d.rest))
  }

  /** With rolls the real sampler could produce, the sum lies between the sums of the bounds. */
  lemma {:induction false} RollAllBounds(dices: seq<DieRange>, rolls: seq<nat>)
    requires FitsRanges(dices, rolls)
    ensures RollAll(dices, rolls).Ok?
    ensures Lows(dices) <= RollAll(dices, rolls).value.value <= Highs(dices)
    decreases |dices|
  {
    if dices != [] {
      RollAllBounds(dices[1..], rolls[1..]);
    }
  }

  lemma GenerateBounds(p: ThreadBasedRandomProvider, ignored: ThreadBasedRandomProvider, rolls: seq<nat>)
    requires FitsRanges(p.dices, rolls)
    ensures Generate(p, ignored, rolls).Ok?
    ensures p.baseValue + Lows(p.dices) <= Generate(p, ignored, rolls).value.value <= p.baseValue + Highs(p.dices)
  {
    RollAllBounds(p.dices, rolls);
  }

  /** The answer depends only on the provider itself, never on the argument. */
  lemma IgnoresArgument(p: ThreadBasedRandomProvider, a: ThreadBasedRandomProvider, b: ThreadBasedRandomProvider, rolls: seq<nat>)
    ensures Generate(p, a, rolls) == Generate(p, b, rolls)
  {
  }

  /** The ranges `[1, face]` of a dice expression. */
  function FaceRanges(faces: seq<nat>): (r: seq<DieRange>)
    ensures |r| == |faces|
    ensures forall i :: 0 <= i < |faces| ==> r[i] == DieRange(1, faces[i])
  {
    if faces == [] then [] else [DieRange(1, faces[0])] + FaceRanges(faces[1..])
  }

  /**
   * A provider whose dice are `[1, face]` answers exactly as the generator's
   * dice expression with the same base and faces, whenever no face is zero.
   */
  lemma AgreesWithDiceExpression(base: GenerationBase, ignored: ThreadBasedRandomProvider, rolls: seq<nat>)
    requires forall i :: 0 <= i < |base.dices| ==> base.dices[i] >= 1
    ensures var p := ThreadBasedRandomProvider(base.baseValue, FaceRanges(base.dices));
      (Generate(p, ignored, rolls).Ok? <==> Dice.Generate(base, rolls).Ok?) &&
      (Generate(p, ignored, rolls).Ok? ==> Generate(p, ignored, rolls).value == Dice.Generate(base, rolls).value)
  {
  }

  lemma Examples(rolls: seq<nat>, ignored: ThreadBasedRandomProvider)
    ensures Generate(ThreadBasedRandomProvider(10, []), ignored, rolls) == Ok(Dice.Drawn(10, rolls))
    ensures FitsRanges([DieRange(1, 6)], rolls) ==>
      var v := Generate(ThreadBasedRandomProvider(5, [DieRange(1, 6)]), ignored, rolls).value.value;
      6 <= v <= 11
    ensures FitsRanges([DieRange(1, 6), DieRange(1, 8), DieRange(2, 10)], rolls) ==>
      var v := Generate(ThreadBasedRandomProvider(0, [DieRange(1, 6), DieRange(1, 8), DieRange(2, 10)]), ignored, rolls).value.value;
      3 <= v <= 24
  {
    assert rolls[..0] == [];
    if FitsRanges([DieRange(1, 6)], rolls) {
      GenerateBounds(ThreadBasedRandomProvider(5, [DieRange(1, 6)]), ignored, rolls);
    }
    var three := [DieRange(1, 6), DieRange(1, 8), DieRange(2, 10)];
    if FitsRanges(three, rolls) {
      GenerateBounds(ThreadBasedRandomProvider(0, three), ignored, rolls);
      assert Lows(three) == 4 && Highs(three) == 24;
    }
  }
}

=== FILE: wrappers.dfy ===
/** Failure-compatible wrappers shared by every module of the model. */
module Wrappers {

  /** An optional value, standing for Rust's `Option`. */
  datatype Option<+T> = None | Some(value: T) {

    predicate IsFailure() {
      None?
    }

    function PropagateFailure<U>(): Option<U>
      requires None?
    {
      None
    }

    function Extract(): T
      requires Some?
    {
      value
    }

    /** The encapsulated value, or `default` when there is none (Rust's `unwrap_or`). */
    function GetOr(default: T): T {
      match this
      case Some(v) => v
      case None => default
    }
  }

  /** A value or an error, standing for Rust's `Result`. */
  datatype Result<+R, +E> = Ok(value: R) | Err(error: E) {

    predicate IsFailure() {
      Err?
    }

    function PropagateFailure<U>(): Result<U, E>
      requires Err?
    {
      Err(error)
    }

    function Extract(): R
      requires Ok?
    {
      value
    }
  }

  function Max(a: int, b: int): int {
    if a >= b then a else b
  }
}
